=== FILE: README.md ===
# imvk frame-pacing core in Dafny

This project models the sequential core of imvk, a thin C++ layer over Vulkan
that hands out device queues to engines and paces frames. Each part is
modelled as immutable state with pure transition functions. Driver calls
become events appended to a trace or inputs supplied by the caller.

The model covers these parts, one Dafny module each:

- **`LinearTable`** (`linear_table.dfy`): the slot table with a LIFO free list
  and the dummy slot at index 0.
- **`QueueLock`** (`queue.dfy`): the queue's optional mutex. It is modelled as
  absent, free or held. A call that would block is the `Blocked` outcome.
- **`QueueRegistry`** (`registry.dfy`): the context's queue registry. It holds
  a map from family to queue index to (queue, reference count), plus storage
  keyed by queue identity. Allocation makes an exact-match pass, then a viable
  pass, then falls back to the least-crowded queue; otherwise it fails.
  `freeQueue` is modelled as written.
- **`QueueRegistryLemmas`** (`registry_lemmas.dfy`):
  - the pass order and the fallback;
  - the places where the code departs from its header documentation;
  - the corrected definitions.
- **`Engines`** (`engine_base.dfy`): the engine base (one queue allocated at
  construction and freed at destruction) and the framed engine's slot ring.
- **`Primitives`** (`primitive.dfy`):
  - the per-frame id table of a primitive handle;
  - the copy-on-write primitive, with its three-step deferred reset as
    explicit steps;
  - the swap primitive, with one object per frame.
- **`GraphicsTrace`** (`events.dfy`): the driver-facing events.
- **`FrameSync`** (`frame_sync.dfy`): the per-slot "fence needs a wait" flag.
- **`SwapchainSetup`** (`swapchain.dfy`): the swapchain constructor. It
  normalises the create-info, builds one layout barrier per image, submits and
  waits once, then builds one view per image.
- **`WindowPolicy`** (`surface_policy.dfy`): the example window's create-info
  policy (present mode, composite alpha, fixed fields).
- **`Graphics`** (`graphics.dfy`):
  - the graphics engine's begin/end/recreate state machine;
  - `run`, written as a loop and checked against a recursive definition,
    including a round cut short by an exception;
  - counting lemmas over a whole run.

Where the system's design description and the code disagree, the model
follows the code:

- The description calls a family "viable" when it offers a superset of the
  request. The code compares compute and transfer with the NEGATED request
  (`ViableMatch`).
- The description says shrinking the dynamic frame count narrows the ring.
  The code stores the full frame count (`SetDynamicFifCount`).
- The description's superset rule counts `present` as a capability. Neither
  of the code's match predicates reads it (`PassIgnoresPresent`).
- The description's reference-count rule has `free` undo one allocation, so
  k allocations are undone by k frees, and drop the guard at a single
  consumer. The code erases a queue only when its count is already 0, and
  never drops the guard (`FreeQueue`).

Each of these is also listed under Findings, with a corrected definition.

Unsigned counters are unbounded `nat`s. The least-crowded fold keeps the
source's `UINT_MAX` sentinel, because that sentinel decides whether the fold
picks anything.

## Model

| member | source | states |
|---|---|---|
| LinearTable.New | include/imvk/base/Utils.hpp:13-16 | A new table has exactly one slot (the empty dummy at index 0) and no freed index. It satisfies the table invariant and contains no index. |
| LinearTable.At | include/imvk/base/Utils.hpp:32-40 | Defined only for a contained index. Returns the value stored in that slot. |
| LinearTable.Erase | include/imvk/base/Utils.hpp:26-30 | Requires a contained index. The slot becomes empty and the index is pushed on the free list. The size and every other slot are unchanged. The invariant is kept. |
| LinearTable.GrowOnce | include/imvk/base/Utils.hpp:74-82 | Returns the old size, an index not yet in the table. Appends exactly one empty slot and keeps the earlier slots and the free list. |
| LinearTable.NextIndex | include/imvk/base/Utils.hpp:66-73 | With freed indices, returns the most recently freed one and pops it (LIFO). Otherwise grows by one slot. On a valid table the index is never 0, never occupied, and in range. |
| LinearTable.EmplaceAsWritten | include/imvk/base/Utils.hpp:18-22 | `emplace` as written pops the free list twice. It is defined only with at least two freed indices. It returns the last freed index and leaves the free list two shorter. |
| LinearTable.Emplace | include/imvk/base/Utils.hpp:18-22 | The corrected `emplace` (one pop). It stores the value at a fresh non-zero index that was not occupied. Every other slot is unchanged and the invariant holds. |
| LinearTable.ItemsFrom | include/imvk/base/Utils.hpp:42-49 | Lists the occupied slots at or above `from`, each with its value, in strictly increasing index order. No occupied slot is skipped. |
| LinearTable.Items | include/imvk/base/Utils.hpp:42-49 | `items()` lists exactly the contained indices, each with its value, in strictly increasing order. |
| LinearTable.Clear | include/imvk/base/Utils.hpp:60-63 | Afterwards there are no slots at all, so nothing is contained, and the free list is empty. The dummy slot is gone too, so the table invariant no longer holds. |
| LinearTable.EraseThenEmplaceReusesIndex | include/imvk/base/Utils.hpp:18-30 | Erasing an index and then emplacing hands back that same index. Re-storing the erased value restores the table exactly. |
| LinearTable.EmplaceAsWrittenLeaksIndex | include/imvk/base/Utils.hpp:18-22 | The second pop of `emplace` loses a freed index. The index is neither occupied nor on the free list, so the invariant is broken. |
| LinearTable.ClearThenNextIndexIsZero | include/imvk/base/Utils.hpp:60-82 | After `clear()` the dummy is gone and the next index handed out is 0. |
| QueueLock.New | include/imvk/base/Queue.hpp:15-18 | The queue has a lock exactly when `sync` is requested. The lock is not held. |
| QueueLock.IntroduceLock | include/imvk/base/Queue.hpp:22-25 | Afterwards a lock exists. An existing lock is left as it was. |
| QueueLock.GiveUpLock | include/imvk/base/Queue.hpp:29 | Afterwards no lock exists, whatever its previous state. |
| QueueLock.Acquire | include/imvk/base/Queue.hpp:48-53 | Blocks exactly when the lock is held. Without a lock, hands out the queue without a lock and changes nothing. With a free lock, the handed queue owns it and the lock becomes held. |
| QueueLock.TryAcquire | include/imvk/base/Queue.hpp:59-68 | Fails exactly when the lock is held. Without a lock it always succeeds and changes nothing. With a free lock it succeeds and takes the lock. |
| QueueLock.Release | include/imvk/base/Queue.hpp:38-42 | When the handed queue's scope ends, a lock it owns becomes free. A handed queue without a lock changes nothing. |
| QueueLock.AcquireReleaseRoundTrip | include/imvk/base/Queue.hpp:38-53 | Acquiring a queue whose lock is not held and then leaving the scope restores the queue exactly. |
| QueueLock.TryAcquireAgreesWithAcquire | include/imvk/base/Queue.hpp:45-68 | The non-blocking call succeeds exactly when the blocking one would not block, and then with the same result. |
| QueueLock.IntroduceLockIdempotent | include/imvk/base/Queue.hpp:22-25 | Introducing the lock twice is the same as introducing it once. |
| QueueRegistry.Init | lib/base/ContextImpl.cpp:9-18 | The constructor gives every physical family index, and nothing else, an empty per-family map. Storage is empty and the registry invariant holds. |
| QueueRegistry.FirstFree | lib/base/ContextImpl.cpp:43-45 | Returns the lowest index in the range that has no entry. Every index before it has one. `None` means every index in the range is taken. |
| QueueRegistry.Pass | lib/base/ContextImpl.cpp:38-66 | One filtered pass in enumeration order stops at the first eligible family that has a free index, taking its lowest free index. Every eligible family before it is full. An exhausted pass has collected exactly the full eligible families as candidates. Families with zero requested queues are skipped. |
| QueueRegistry.LeastInFamily | lib/base/ContextImpl.cpp:80-92 | The inner fold replaces the accumulator only on a strictly smaller count. Its result is no larger than any count in the family and is the first index of minimal count, unless the seed already beats every count. |
| QueueRegistry.LeastCrowdedFrom | lib/base/ContextImpl.cpp:77-99 | The outer fold's count is at most every count of every candidate. The choice beats all queues of earlier candidates and all lower indices of its own family (ties go to the earlier family, then the lower index), or the seed is kept. |
| QueueRegistry.ChosenStep | lib/base/ContextImpl.cpp:77-99 | One step of the outer fold preserves "the result is the seed or the strict first minimum". |
| QueueRegistry.SetEntry | lib/base/ContextImpl.cpp:130-134 | Writes the entry and the stored queue for one identity. Every other entry and stored queue is unchanged. |
| QueueRegistry.SetEntryKeepsValid | lib/base/ContextImpl.cpp:120-136 | Writing an entry whose queue is not locked, and which has a lock when the count is 2 or more, keeps the registry invariant. |
| QueueRegistry.EraseEntry | lib/base/ContextImpl.cpp:112-115 | Removes the entry and its stored queue. Every other entry and stored queue is unchanged. |
| QueueRegistry.EraseEntryKeepsValid | lib/base/ContextImpl.cpp:112-115 | Erasing an entry keeps the registry invariant. |
| QueueRegistry.AllocateAt | lib/base/ContextImpl.cpp:120-136 | A new queue enters with count 1 and no lock. An existing queue's count goes up by one, and the lock is introduced exactly when the count goes from 1 to 2. Nothing else changes and the invariant holds. |
| QueueRegistry.AllocateQueue | lib/base/ContextImpl.cpp:20-100 | The public `allocateQueue` uses the exact-match pass first and the viable-match pass second. On success, exactly one count changes: it goes up by one, or the queue enters at 1. Below the `UINT_MAX` sentinel, the queue belongs to a family one of the two passes asks for, and the only possible failure is "no viable candidates". That error happens exactly when no family with a positive requested count is an exact or viable match. |
| QueueRegistry.AllocateWith | lib/base/ContextImpl.cpp:20-100 | On success, exactly one count changes: it goes up by one, or the queue enters at 1. Below the `UINT_MAX` sentinel, the queue belongs to a family one of the passes asks for, and the only possible failure is "no viable candidates". That error happens exactly when no family is eligible for either pass. |
| QueueRegistry.FoundServes | lib/base/ContextImpl.cpp:38-66 | A pass that finds a free queue finds it in an eligible family, below that family's requested count. |
| QueueRegistry.Fallback | lib/base/ContextImpl.cpp:68-100 | The least-crowded fallback over full eligible candidates. Below the sentinel it always succeeds: it picks a queue of an eligible family, increments its count and leaves the others, and keeps the invariant. Any failure is the `at` lookup's out-of-range error. |
| QueueRegistry.CandidatesEmptyIff | lib/base/ContextImpl.cpp:68-72 | After two exhausted passes the candidate list is empty exactly when no family is eligible for either pass. |
| QueueRegistry.FreeQueue | lib/base/ContextImpl.cpp:103-118 | `freeQueue` as written. It fails exactly when the queue is not registered. A positive count is decremented, and entry and storage are kept. The entry and stored queue are erased only when the count was already 0. Other counts are unchanged. |
| QueueRegistryLemmas.ExactAndViableDisjoint | lib/base/ContextImpl.cpp:27-36 | No family is both an exact and a viable match, so no family is collected twice as a candidate. |
| QueueRegistryLemmas.ExactMatchesTriedFirst | lib/base/ContextImpl.cpp:54-59 | If an eligible exact-match family has a free index, allocation takes a fresh queue from the first such family at its lowest free index. |
| QueueRegistryLemmas.ViableMatchesTriedSecond | lib/base/ContextImpl.cpp:54-66 | With every exact family full, a viable family with a free index is used next: the first one, at its lowest free index, with a fresh queue. |
| QueueRegistryLemmas.EligibleFrom | lib/base/ContextImpl.cpp:55-56 | The filtered enumeration holds only families eligible for the pass. |
| QueueRegistryLemmas.PassCollectsEligible | lib/base/ContextImpl.cpp:38-49 | When every eligible family is full, a pass appends exactly the eligible families, in enumeration order, to the candidates. |
| QueueRegistryLemmas.FallbackIsLeastCrowded | lib/base/ContextImpl.cpp:68-100 | When all eligible families are full, the candidates are the exact families followed by the viable ones. The allocation is the least-crowded fold over them. |
| QueueRegistryLemmas.CandidatesNonEmptyAndFull | lib/base/ContextImpl.cpp:38-72 | In that situation the candidate list is non-empty and every candidate is full. |
| QueueRegistryLemmas.FallbackSharesLeastCrowded | lib/base/ContextImpl.cpp:74-100 | The fallback shares an already allocated queue: the first one of strictly least count over the candidates. Its count goes up by one. |
| QueueRegistryLemmas.EligibleIsCollected | lib/base/ContextImpl.cpp:55-63 | Every eligible family at or after the start position is in the filtered list. |
| QueueRegistryLemmas.CollectedAreFamilies | lib/base/ContextImpl.cpp:55-63 | Every family in the filtered list comes from the enumeration at or after the start position. |
| QueueRegistryLemmas.ViableMatchExcludesRequestedCapability | lib/base/ContextImpl.cpp:32-36 | A viable family never offers compute or transfer when the request asks for it. |
| QueueRegistryLemmas.AllocationCanLackRequestedCapability | lib/base/ContextImpl.cpp:32-66 | Counterexample: an all-capabilities request on a device whose only family offers graphics alone gets that family's queue. |
| QueueRegistryLemmas.PassIgnoresPresent | lib/base/ContextImpl.cpp:27-36 | A pass gives the same result whatever the request's `present` flag. |
| QueueRegistryLemmas.AllocationIgnoresPresent | lib/base/ContextImpl.cpp:27-66 | `allocateQueue` gives the same result when `present` is flipped. |
| QueueRegistryLemmas.IntendedAllocationIsSuperset | include/imvk/base/ContextImpl.hpp:23-29 | The corrected allocation (exact match honouring `present`, then a superset test) only hands out queues of families offering every requested capability. |
| QueueRegistryLemmas.IntendedAllocationRefusesIncapableFamily | include/imvk/base/ContextImpl.hpp:23-29 | On the counterexample device the corrected allocation fails with "no viable candidates". |
| QueueRegistryLemmas.FreeQueueKeepsLock | lib/base/ContextImpl.cpp:103-118 | As written, freeing a queue shared by two engines leaves its count at 1 with the lock still present. |
| QueueRegistryLemmas.FreeQueueKeepsQueueAtZero | lib/base/ContextImpl.cpp:112-117 | As written, freeing a queue held once leaves it registered and stored with count 0. |
| QueueRegistryLemmas.FreshQueueNeedsTwoFrees | lib/base/ContextImpl.cpp:103-136 | As written, allocating a fresh queue and freeing it once does not restore the registry. A second free does. |
| QueueRegistryLemmas.FreeZeroEntryRestores | lib/base/ContextImpl.cpp:112-115 | Freeing an entry at count 0 erases it and gives back the registry before it was written. |
| QueueRegistryLemmas.FreeQueueIntended | include/imvk/base/ContextImpl.hpp:31-34 | The documented free fails exactly for unregistered queues. A count of 1 frees the queue. A larger count is decremented, and reaching 1 abolishes the lock. The invariant holds. |
| QueueRegistryLemmas.FreeQueueIntendedKeepsInvariant | include/imvk/base/ContextImpl.hpp:31-34 | The documented free keeps the documented invariant: every count is positive, and a queue has a lock exactly when it is shared. |
| QueueRegistryLemmas.EraseKeepsIntended | include/imvk/base/ContextImpl.hpp:31-34 | Erasing a registered queue keeps the documented invariant. |
| QueueRegistryLemmas.DecrementEntry | include/imvk/base/ContextImpl.hpp:31-34 | Decrementing a shared queue lowers its count by one and drops the lock exactly when the count reaches 1. It keeps the registry invariant. |
| QueueRegistryLemmas.DecrementKeepsIntended | include/imvk/base/ContextImpl.hpp:31-34 | That decrement keeps the documented invariant. |
| QueueRegistryLemmas.SetEntryKeepsIntended | include/imvk/base/ContextImpl.hpp:31-34 | Writing an entry with a positive count, locked exactly when shared, keeps the documented invariant. |
| QueueRegistryLemmas.AllocateKeepsIntendedInvariant | lib/base/ContextImpl.cpp:120-136 | `m_allocateQueue` keeps the documented invariant. |
| QueueRegistryLemmas.IntendedAllocateThenFreeRestores | include/imvk/base/ContextImpl.hpp:31-34 | With the documented free, allocating a queue and freeing it restores the registry exactly. |
| QueueRegistryLemmas.SharedAllocateThenFreeRestores | include/imvk/base/ContextImpl.hpp:31-34 | The same round trip for a queue that was already registered. |
| QueueRegistryLemmas.FreshAllocateThenFreeRestores | include/imvk/base/ContextImpl.hpp:31-34 | The same round trip for a queue that was not registered. |
| QueueRegistryLemmas.AllocateTimes | lib/base/ContextImpl.cpp:120-136 | Any number of allocations of one queue keeps the documented invariant. |
| QueueRegistryLemmas.FreeTimesStep | include/imvk/base/ContextImpl.hpp:31-34 | Once one free succeeds, k frees from there are that free followed by k - 1 more. |
| QueueRegistryLemmas.IntendedKAllocationsKFrees | include/imvk/base/ContextImpl.hpp:31-34 | With the documented free, k allocations of a queue are undone by exactly k frees, restoring the registry. |
| QueueRegistryLemmas.AllocateTimesStep | lib/base/ContextImpl.cpp:120-136 | k allocations are k - 1 allocations followed by one more. |
| Engines.NewEngineBase | include/imvk/base/EngineBase.hpp:21-25 | Construction takes the registry and the queue that `allocateQueue` picks for the engine's request, so below the `UINT_MAX` sentinel the queue belongs to a family that request matches. The command pool is created on that queue's family. It fails exactly when allocation fails. Below the sentinel it succeeds whenever some family with a positive requested count is an exact or viable match. The engine's queue gains one reference and every other count is unchanged. |
| Engines.DestroyEngineBase | include/imvk/base/EngineBase.hpp:31 | Destruction frees exactly the engine's queue. Every other count is unchanged. |
| Engines.EngineLifetimeRestoresCounts | include/imvk/base/EngineBase.hpp:21-31 | Constructing and destroying an engine restores every pre-existing count. A queue it was first to take stays registered with count 0. |
| Engines.NewRing | lib/base/EngineBase.cpp:6-15 | Creates `n` frames with ids 0..n-1 in order, none recording. The dynamic count is `n` and slot 0 is current. The ring invariant holds exactly when `n` is positive. |
| Engines.Begin | lib/base/EngineBase.cpp:29-33 | Fails exactly when the current slot is out of range. Otherwise it begins and returns the frame whose id is the current slot, leaves the slot where it is, and touches no other frame. |
| Engines.EndAndAdvance | lib/base/EngineBase.cpp:24-27 | Ends the current frame and moves to (current + 1) mod the dynamic count. It keeps the invariant current < dynamic count ≤ frame count. |
| Engines.AdvanceTimes | lib/base/EngineBase.cpp:24-27 | Any number of advances keeps the ring invariant and the dynamic count. |
| Engines.AdvanceTimesIsRoundRobin | lib/base/EngineBase.cpp:26 | After m advances from slot c with dynamic count d, the current slot is (c + m) mod d. |
| Engines.AdvanceTimesStep | lib/base/EngineBase.cpp:24-27 | m advances are m - 1 advances followed by one more. |
| Engines.SetDynamicFifCount | lib/base/EngineBase.cpp:17-22 | As written, the dynamic count becomes the full frame count whatever the argument. The current slot stays, and is reset to 0 only if out of range. |
| Engines.SetDynamicFifCountIgnoresCount | lib/base/EngineBase.cpp:17-22 | Asking for fewer slots than there are frames leaves the dynamic count at the full number and the slot unchanged. |
| Engines.SetDynamicFifCountIntended | lib/base/EngineBase.cpp:17-22 | The corrected setter stores `count`. It resets the slot to 0 exactly when the slot no longer fits, and keeps the ring invariant. |
| Engines.IntendedDynamicCountBoundsRing | lib/base/EngineBase.cpp:17-27 | After the corrected setter, the ring never reaches a slot at or above `count`, and `count` advances return to the starting slot. |
| Engines.ZeroFramesInFlightHasNoSlot | lib/base/EngineBase.cpp:24-33 | With zero frames in flight, both begin and end fail: the lookup of slot 0 is out of range. |
| Primitives.NewHandleIds | include/imvk/base/Primitive.hpp:17-19 | The id table has one entry per frame in flight, all 0. |
| Primitives.SetIdForFrame | include/imvk/base/Primitive.hpp:22-29 | For a frame in range, `getIDforFrame` afterwards returns the new id. Every other frame's id and the size are unchanged. |
| Primitives.SetIdForFrameLastWins | include/imvk/base/Primitive.hpp:22-29 | Of two ids set for a frame only the second remains. Setting a frame's current id changes nothing. |
| Primitives.NewCow | include/imvk/base/Primitive.hpp:116-119 | A new copy-on-write primitive publishes no object and has no pending update. |
| Primitives.Issue | include/imvk/base/Primitive.hpp:141-145 | Issuing either `reset` only records a deferred update under a fresh ticket. What `get` returns is unchanged for every frame. |
| Primitives.Drive | include/imvk/base/Primitive.hpp:141-209 | Advances one deferred update one step. A replace goes from allocation, to initialisation finished, to publishing; an invalidate only publishes. Publishing swaps the shared object, yields the stale one and retires the ticket. Earlier steps publish nothing. |
| Primitives.RunCow | include/imvk/base/Primitive.hpp:141-209 | Running a schedule of issues and steps keeps every pending ticket below the next one. |
| Primitives.NoPublishKeepsVisible | include/imvk/base/Primitive.hpp:161-164 | Steps that do not publish never change what `get` returns. |
| Primitives.LastPublishWins | include/imvk/base/Primitive.hpp:88-95 | After any schedule, `get` returns what the last publishing step executed stored, however the updates were issued. |
| Primitives.CompletionOrderNotIssueOrder | include/imvk/base/Primitive.hpp:93-95 | With reset A issued before reset B, but B completed first, every frame sees A: completion order, not issue order, decides. |
| Primitives.BPublishedFirst | include/imvk/base/Primitive.hpp:141-181 | The first half of that schedule leaves B published and A still only issued. |
| Primitives.RunCowSnoc | include/imvk/base/Primitive.hpp:141-209 | One more event after a successful schedule is the corresponding issue or step. |
| Primitives.NewSwap | include/imvk/base/Primitive.hpp:235-238 | As written: one empty slot per frame in flight, but the reported type is copy-on-write. |
| Primitives.NewSwapIntended | include/imvk/base/Primitive.hpp:235-238 | The corrected constructor: the same slots, reported as swap. |
| Primitives.SwapReportsCow | include/imvk/base/Primitive.hpp:236 | The two constructors differ exactly in the reported type. |
| Primitives.SwapGet | include/imvk/base/Primitive.hpp:271-273 | `get(frame)` fails exactly when the frame id is out of range. |
| Primitives.SwapReset | include/imvk/base/Primitive.hpp:244-248 | `reset(frame)` fails exactly out of range. It keeps the slot count and the reported type. |
| Primitives.SwapResetAll | include/imvk/base/Primitive.hpp:254-258 | `resetAll` gives every frame's slot its own new object, one allocation per slot, so no two slots share an object. |
| Primitives.SwapWrite | include/imvk/base/Primitive.hpp:266-269 | `write(frame)` needs an object in the frame's slot. It fails exactly out of range and keeps the slot count. |
| Primitives.SwapResetTouchesOnlyItsFrame | include/imvk/base/Primitive.hpp:244-248 | After `reset(frame)`, `get` on that frame returns the new object, and on every other frame what it returned before. |
| Primitives.SwapWriteTouchesOnlyItsFrame | include/imvk/base/Primitive.hpp:266-269 | After `write(frame)` the frame keeps the same object with the new data. Every other frame is unaffected. |
| FrameSync.NewSync | include/imvk/graphics/Frame.hpp:29 | A new sync set is disarmed. |
| FrameSync.WaitIfNeeded | lib/graphics/Frame.cpp:10-16 | When armed: waits on the fence, resets it, disarms, in that order. When disarmed: does nothing. |
| FrameSync.WaitIfNeededIdempotent | lib/graphics/Frame.cpp:10-16 | A second call right after the first does nothing. |
| FrameSync.EachArmingWaitedOnce | lib/graphics/Frame.cpp:10-16 | Over any schedule in which every arming is followed by a `waitIfNeeded` call before the next arming or the end, the number of fence waits equals the number of armings, and the slot ends disarmed. |
| FrameSync.WaitsFollowArmings | lib/graphics/Frame.cpp:10-16 | Over any sequence of armings and `waitIfNeeded` calls on one slot, a call waits on the fence exactly when it comes right after an arming, and the slot is left armed exactly when the last operation was an arming. |
| SwapchainSetup.Normalize | lib/graphics/Swapchain.cpp:9-19 | Forces the following, and copies every other field unchanged: `pNext`, `oldSwapchain` and `pQueueFamilyIndices` null; `sType` set; exclusive sharing; colour-attachment usage. An already normal create-info is unchanged. |
| SwapchainSetup.NormalizeIdempotent | lib/graphics/Swapchain.cpp:9-19 | Normalising twice is normalising once. Two create-infos normalise to the same record exactly when they agree on every kept field. |
| SwapchainSetup.BuildBarriers | lib/graphics/Swapchain.cpp:20-40 | One barrier per image, in image order. Each is undefined to present-source, colour aspect, one level, one layer, no ownership transfer, with memory-read access. |
| SwapchainSetup.Build | lib/graphics/Swapchain.cpp:7-70 | The driver gets the normalised create-info. The barrier batch is recorded, submitted once and its fence waited on before any view is created. Then one identity view per image follows, in image order. |
| WindowPolicy.AnyOf | examples/common/IMVKWindow.cpp:177-183 | `any_of(mode == m)` holds exactly when `m` is among the modes. |
| WindowPolicy.PickPresentMode | examples/common/IMVKWindow.cpp:173-189 | Mailbox if offered; else immediate if offered; else FIFO. Each outcome holds exactly under its condition. |
| WindowPolicy.PickPresentModeIsOffered | examples/common/IMVKWindow.cpp:173-189 | When FIFO is offered, as every surface must, the picked mode is an offered one. Offering only the picked mode picks it again. |
| WindowPolicy.FirstSupported | examples/common/IMVKWindow.cpp:201-206 | Finds the first flag whose bit is in the mask; no earlier flag's bit is. `None` means no flag's bit is in the mask. |
| WindowPolicy.PickCompositeAlpha | examples/common/IMVKWindow.cpp:192-208 | The first of opaque, pre-multiplied, post-multiplied and inherit that the mask supports; opaque if none is supported. No earlier preferred mode is skipped. |
| WindowPolicy.PickCompositeAlphaStable | examples/common/IMVKWindow.cpp:192-208 | A surface supporting opaque always gets opaque. A mask of just the picked mode picks it again. |
| WindowPolicy.GetCreateInfo | examples/common/IMVKWindow.cpp:156-213 | The create-info takes extent, minimum image count and transform from the capabilities, and format and colour space from the first surface format. It uses the picked present mode and alpha. Its fixed fields are null `pNext`, no queue families, colour usage, exclusive sharing, one layer and not clipped. Fields never written keep their values. |
| WindowPolicy.WindowCreateInfoIsNormal | examples/common/IMVKWindow.cpp:156-213 | The window's create-info is already what the swapchain constructor normalises to, so the driver receives it unchanged. Asking again gives the same record. |
| Graphics.NewGraphicsEngine | lib/graphics/Engine.cpp:9-27 | For a positive frame count: the queue is requested with all four capabilities, and there is one disarmed sync set per frame. Slot 0 is current, no frame is in progress, there are no callbacks, and one swapchain has been built. |
| Graphics.BeforeEvents | lib/graphics/Engine.cpp:66-70 | Every before-destroy callback runs, in registration order. |
| Graphics.AfterEvents | lib/graphics/Engine.cpp:75-79 | Every after-create callback runs, in registration order. |
| Graphics.RecreateEvents | lib/graphics/Engine.cpp:64-80 | Recreation is, in order: wait idle, the before-destroy callbacks, the rebuild, then the after-create callbacks. |
| Graphics.Recreate | lib/graphics/Engine.cpp:64-80 | Recreation appends exactly those events and builds one more swapchain. Nothing else changes. |
| Graphics.BeginFrame | lib/graphics/Engine.cpp:29-47 | The current slot's sync set is waited on if armed, then an image is acquired. A frame is begun exactly on OK, at the current slot. A timeout changes nothing further. Out-of-date or suboptimal recreates exactly when the surface is not minimised. The slot never moves. |
| Graphics.EndFrame | lib/graphics/Engine.cpp:49-62 | Uses the recording slot's sync set, read before the advance. It ends the recording, advances the ring once, submits and presents, arms that slot's fence and clears the frame in progress. |
| Graphics.AddSwapchainCallback | include/imvk/graphics/Engine.hpp:28-33 | The pair is appended after every pair registered before it. Nothing else changes. |
| Graphics.Terminate | lib/graphics/Engine.cpp:92 | Termination waits the queue idle. Nothing else changes. |
| Graphics.Iteration | include/imvk/graphics/Engine.hpp:37-43 | An iteration keeps the engine invariant and leaves no frame in progress. The ring advances exactly when the acquire succeeded, and the trace is only extended. |
| Graphics.IterationTrace | include/imvk/graphics/Engine.hpp:37-43 | An iteration's events, in order: inter-frame job, wait if armed, acquire. Then record, frame job, end, submit, present on success, or the recreation events when stale and not minimised. |
| Graphics.RoundEventsAreIteration | include/imvk/graphics/Engine.hpp:37-43 | The calls of a round that goes on are exactly the events its iteration appends. A round whose inter-frame job returns false makes that one call only. |
| Graphics.ThrownEvents | include/imvk/graphics/Engine.hpp:35-44 | A round cut short by a throwing call keeps a non-empty prefix of the round's calls, ending with the call that threw, and always starting with the inter-frame job. |
| Graphics.RunSpec | include/imvk/graphics/Engine.hpp:21-44 | `run` returns exactly when the round that leaves it is one whose inter-frame job returned false, not one where a call threw. A returning run keeps the invariant, leaves no frame in progress, and keeps the callbacks and engine base. |
| Graphics.RunExtendsTrace | include/imvk/graphics/Engine.hpp:21-44 | A run only appends to the trace. Whether it returns or an exception leaves it, its last event is waiting the queue idle: the terminator guard's `m_terminate`. |
| Graphics.Run | include/imvk/graphics/Engine.hpp:21-44 | The loop computes the recursive definition. It returns exactly when no call threw, and then keeps the invariant. On either exit it only extends the trace and ends with the queue waited idle. |
| Graphics.IterationCounts | include/imvk/graphics/Engine.hpp:37-43 | An iteration adds one inter-frame job. It adds exactly one recording, one frame job and one end when the acquire succeeded, and none otherwise. |
| Graphics.ThrownCount | include/imvk/graphics/Engine.hpp:37-43 | A round cut short by an exception calls the inter-frame job once. It begins a recording, calls the frame job and ends a recording exactly when the acquire succeeded and the round reached the first, second and third call after the acquire, respectively. The call that throws counts as reached. |
| Graphics.ThrownCounts | include/imvk/graphics/Engine.hpp:37-43 | Such a round ends no more recordings than it hands to the frame job, hands no more than it begins, and begins at most one, only on a successful acquire. |
| Graphics.RunCounts | include/imvk/graphics/Engine.hpp:35-44 | Over a run the inter-frame job runs once per iteration plus once in the round that leaves, however it is left. When `run` returns, recordings, frame jobs and ends each equal the number of successful acquires. An exception adds at most one of each. |
| Graphics.RunFramesBalanced | include/imvk/graphics/Engine.hpp:35-44 | A run that returns records, hands to the frame job and ends the same number of frames. One left by an exception is off by at most one, in the order recorded ≥ handed ≥ ended. |

## Left out

- Vulkan driver effects are not performed; they are trace events or inputs. This covers submit, present, fence wait and reset, command buffer begin/end, image acquisition and wait-idle. The acquire status and the surface extent are inputs to `BeginFrame`. The 1000 ms acquire timeout is not represented; a timeout is just the `Timeout` status.
- Real mutex blocking and threads are replaced by a lock flag and a `Blocked` outcome. The lock acquisitions that `m_endFrame`, `m_recreate_swapchain`, `m_terminate` and `freeQueue` make around a driver call take and release the lock within the call, so they leave no trace in the state. The swapchain constructor takes the queue's lock once (Swapchain.cpp:42) and holds it until it ends. So every step of `SwapchainSetup.Build`, from the barrier submit and fence wait through each view creation, runs under that lock, which the model does not represent.
- The copy-on-write reset's `std::async` deferred futures become explicit tickets driven by `Drive`. Who runs which future is the caller's schedule.
- Allocator calls (`allocate`, `write`) are not part of this model: a freshly allocated object is an input, and `write` stores the given data in the object.
- `usePrimitive` and `m_toBeDeleted` are only declared in the frame header and have no implementation, so they are not modelled. The frame's command-buffer wrapper is reduced to a `recording` flag.
- The compute and copy engine factories (they return null) and the swapchain factory's recreate callback (never installed or invoked) are not modelled.
- The swapchain object itself is a generation counter in the graphics engine. Its construction is modelled separately by `SwapchainSetup.Build`, whose images are an input.
- The `LinearTable` reserve chunk size only governs vector capacity and is not part of the state.
- Counters are unbounded: reference counts, frame ids and slot indices do not wrap at 2^32.
- QueueRegistry.AllocateWith: the statements that allocation cannot fail with an out-of-range error and that the chosen queue belongs to an eligible family are made only while every count is below `UINT_MAX`. At that count the source's fold would keep its seed (family 0, queue 0), which the model reproduces without proving anything about it.
- Graphics.RunSpec: a run in which the inter-frame job never returns false and nothing throws does not terminate, so runs are scripts that contain a stop or a throw.
- Graphics.RunSpec: after an exception, only the events up to the throw and the guard's wait-idle are modelled, not the engine's fields. A frame job that throws leaves `m_currentFrame` set, so a later `run` would trip `m_beginFrame`'s assert; the model does not follow the engine past the exception.
- Queue destruction while `freeQueue` still holds its lock is a lifetime issue; only the map and count effect is modelled.
- The window's GLFW plumbing, shader loading, device selection, render pass construction and the demo program are outside the core.

## Findings

| source | as written | input that shows it | evidently intended | confidence | as-written member | corrected member |
|---|---|---|---|---|---|---|
| include/imvk/base/Utils.hpp:20 | `emplace` pops the free list after `m_getNextIndex` already popped it | a table with two freed indices: one is handed out, the other is lost; with one freed index the second pop is on an empty vector | a single pop | not executed | LinearTable.EmplaceAsWrittenLeaksIndex | LinearTable.Emplace |
| lib/base/ContextImpl.cpp:34-35 | viable match requires `!requested == offered` for compute and transfer | an all-capabilities request on a graphics-only family is served by that family | the family offers a superset of the request | not executed | QueueRegistryLemmas.AllocationCanLackRequestedCapability | QueueRegistryLemmas.IntendedAllocationIsSuperset |
| lib/base/ContextImpl.cpp:27-36 | neither match consults `present` | flipping `present` on any request gives the same allocation | a present request only gets a presenting family | not executed | QueueRegistryLemmas.AllocationIgnoresPresent | QueueRegistryLemmas.IntendedAllocationIsSuperset |
| lib/base/ContextImpl.cpp:112-117 | erase only when the count is already 0; decrement otherwise; lock never dropped | a fresh queue allocated and freed once stays registered at count 0; a queue shared by two keeps its lock after one free | count reaching 1 abolishes the lock, reaching 0 frees the queue | not executed | QueueRegistryLemmas.FreshQueueNeedsTwoFrees | QueueRegistryLemmas.FreeQueueIntended |
| lib/base/EngineBase.cpp:19 | `m_dynamicFIFCount = m_frameInFlightCount` | `setDynamicFIFCount(1)` with 3 frames leaves the dynamic count at 3 | store `count` | not executed | Engines.SetDynamicFifCountIgnoresCount | Engines.SetDynamicFifCountIntended |
| include/imvk/base/Primitive.hpp:236 | the swap primitive passes `Type::cow` | any swap primitive reports copy-on-write | `Type::swap` | not executed | Primitives.SwapReportsCow | Primitives.NewSwapIntended |
| lib/graphics/Engine.cpp:21 | zero frames in flight is documented as "auto" but asserted away, and checked only after the frames were built | zero frames in flight: the ring has no slot, so begin and end fail | a positive frame count: the assert is taken as the intent, since no code says what "auto" would choose | not executed | Engines.ZeroFramesInFlightHasNoSlot | Graphics.NewGraphicsEngine |

=== FILE: engine_base.dfy ===
/** The common engine base (one queue and a command pool on its family) and the
    framed engine's ring of frame slots. */
module Engines {
  import opened Wrappers
  import opened QueueLock
  import opened QueueRegistry

  /*** EngineBase ***/

  /** What an engine keeps of its context: the queue handed to it, and the
      family its command pool was created for. */
  datatype EngineBase = EngineBase(queue: QueueId, poolFamily: nat)

  /** The constructor: one queue is allocated with the engine's request, and
      the command pool is created for that queue's family. */
  function NewEngineBase(reg: Registry, families: seq<QueueFamily>, req: QueueCapsInfo)
    : (r: Result<(Registry, EngineBase), RegistryError>)
    requires QueueRegistry.Valid(reg) && KnowsFamilies(reg, families)
    ensures r.Failure? <==> AllocateQueue(reg, families, req).Failure?
    ensures r.Success? ==>
              && AllocateQueue(reg, families, req).Success?
              && r.value.0 == AllocateQueue(reg, families, req).value.0
              && r.value.1.queue == AllocateQueue(reg, families, req).value.1
    ensures r.Success? && CountsBelowMax(reg) ==>
              exists p :: 0 <= p < |families| && Serves(families[p], r.value.1.queue, req, Exact, Viable)
    ensures (&& CountsBelowMax(reg)
             && exists p :: 0 <= p < |families| &&
                  (Eligible(Exact, req, families[p]) || Eligible(Viable, req, families[p])))
            ==> r.Success?
    ensures r.Success? ==>
              var (reg', e) := r.value;
              && QueueRegistry.Valid(reg') && Allocated(reg', e.queue)
              && e.poolFamily == e.queue.family
              && RefCount(reg', e.queue) == (if Allocated(reg, e.queue) then RefCount(reg, e.queue) + 1 else 1)
              && forall id :: id != e.queue ==>
                   && (Allocated(reg', id) <==> Allocated(reg, id))
                   && (Allocated(reg, id) ==> RefCount(reg', id) == RefCount(reg, id))
  {
    var (reg', id) :- AllocateQueue(reg, families, req);
    Success((reg', EngineBase(id, reg'.storage[id].id.family)))
  }

  /** The destructor gives back exactly the queue the engine was handed. */
  function DestroyEngineBase(reg: Registry, e: EngineBase): (r: Result<Registry, RegistryError>)
    requires QueueRegistry.Valid(reg)
    ensures r.Failure? <==> !Allocated(reg, e.queue)
    ensures r.Success? ==> QueueRegistry.Valid(r.value)
    ensures r.Success? && RefCount(reg, e.queue) > 0 ==>
              Allocated(r.value, e.queue) && RefCount(r.value, e.queue) == RefCount(reg, e.queue) - 1
    ensures r.Success? ==> forall id :: id != e.queue ==>
              && (Allocated(r.value, id) <==> Allocated(reg, id))
              && (Allocated(reg, id) ==> RefCount(r.value, id) == RefCount(reg, id))
  {
    FreeQueue(reg, e.queue)
  }

  /** An engine built and destroyed again leaves every reference count of the
      registry as it found it; a queue it was the first to take stays
      registered with count 0, as `freeQueue` is written. */
  lemma EngineLifetimeRestoresCounts(reg: Registry, families: seq<QueueFamily>, req: QueueCapsInfo)
    requires QueueRegistry.Valid(reg) && KnowsFamilies(reg, families)
    requires NewEngineBase(reg, families, req).Success?
    ensures var (reg', e) := NewEngineBase(reg, families, req).value;
            var after := DestroyEngineBase(reg', e);
            && after.Success?
            && (forall id :: Allocated(reg, id) ==> Allocated(after.value, id) && RefCount(after.value, id) == RefCount(reg, id))
            && (!Allocated(reg, e.queue) ==> Allocated(after.value, e.queue) && RefCount(after.value, e.queue) == 0)
  {
    var (reg', e) := NewEngineBase(reg, families, req).value;
    var after := DestroyEngineBase(reg', e);
    forall id | Allocated(reg, id)
      ensures Allocated(after.value, id) && RefCount(after.value, id) == RefCount(reg, id)
    {
      if id == e.queue {
        assert RefCount(reg', id) > 0;
      }
    }
  }

  /*** FramedEngine ***/

  /** A frame slot; `recording` is whether its command buffer has been begun
      and not yet ended. */
  datatype Frame = Frame(id: nat, recording: bool)

  /** The ring: `fifCount` never changes after construction, `frames[i]` is the
      frame with id `i`, and `current` selects the slot in use. */
  datatype Ring = Ring(fifCount: nat, frames: seq<Frame>, dynamicCount: nat, current: nat)

  /** What every reachable ring satisfies, whatever the frame count. */
  ghost predicate WellFormed(r: Ring) {
    && |r.frames| == r.fifCount
    && (forall i :: 0 <= i < |r.frames| ==> r.frames[i].id == i)
    && r.dynamicCount <= r.fifCount
    && (r.fifCount > 0 ==> r.dynamicCount > 0)
  }

  /** The ring's invariant: the current slot lies below the dynamic count,
      which is at most the number of frames, so every lookup is in range. */
  ghost predicate Valid(r: Ring) {
    WellFormed(r) && r.current < r.dynamicCount
  }

  /** The constructor: `n` frames with ids `0 .. n-1` in order, a dynamic
      count of `n`, and slot 0 current. */
  function NewRing(n: nat): (r: Ring)
    ensures WellFormed(r) && r.fifCount == n && r.dynamicCount == n && r.current == 0
    ensures forall i :: 0 <= i < n ==> !r.frames[i].recording
    ensures n > 0 <==> Valid(r)
  {
    Ring(n, seq(n, i requires 0 <= i => Frame(i, false)), n, 0)
  }

  /** `beginAndGetCurrentFrame`: looks up the current slot (an out-of-range
      lookup is `None`), begins its recording and returns it; the current slot
      does not move. */
  function Begin(r: Ring): (res: Option<(Ring, Frame)>)
    requires WellFormed(r)
    ensures res.None? <==> r.current >= r.fifCount
    ensures Valid(r) ==> res.Some?
    ensures res.Some? ==>
              var (r', f) := res.value;
              && WellFormed(r') && r'.fifCount == r.fifCount && r.current < r.fifCount
              && r'.current == r.current && r'.dynamicCount == r.dynamicCount
              && f.id == r.current && f.recording && r'.frames[r.current] == f
              && (forall i :: 0 <= i < |r.frames| && i != r.current ==> r'.frames[i] == r.frames[i])
              && (Valid(r) ==> Valid(r'))
  {
    if r.current >= |r.frames| then None
    else
      var f := r.frames[r.current].(recording := true);
      Some((r.(frames := r.frames[r.current := f]), f))
  }

  /** `endAndAdvanceFrame`: ends the current frame (an out-of-range lookup is
      `None`) and moves to the next slot modulo the dynamic count. */
  function EndAndAdvance(r: Ring): (res: Option<Ring>)
    requires WellFormed(r)
    ensures res.None? <==> r.current >= r.fifCount
    ensures Valid(r) ==> res.Some? && Valid(res.value)
    ensures res.Some? ==>
              && WellFormed(res.value) && res.value.fifCount == r.fifCount && r.current < r.fifCount
              && res.value.current == (r.current + 1) % r.dynamicCount
              && res.value.dynamicCount == r.dynamicCount
              && !res.value.frames[r.current].recording
              && (forall i :: 0 <= i < |r.frames| && i != r.current ==> res.value.frames[i] == r.frames[i])
  {
    if r.current >= |r.frames| then None
    else
      var frames := r.frames[r.current := r.frames[r.current].(recording := false)];
      Some(r.(frames := frames, current := (r.current + 1) % r.dynamicCount))
  }

  /** Ending and advancing `m` times from a valid ring. */
  function AdvanceTimes(r: Ring, m: nat): (r': Ring)
    requires Valid(r)
    ensures Valid(r') && r'.dynamicCount == r.dynamicCount
    decreases m
  {
    if m == 0 then r else EndAndAdvance(AdvanceTimes(r, m - 1)).value
  }

  lemma MulAtLeast(k: int, d: int)
    requires k >= 1 && d > 0
    ensures k * d >= d
    decreases k
  {
    if k > 1 {
      MulAtLeast(k - 1, d);
      assert k * d == (k - 1) * d + d;
    }
  }

  /** Euclidean remainders are unique. */
  lemma ModUnique(a: int, d: int, q: int, r: int)
    requires d > 0 && 0 <= r < d && a == q * d + r
    ensures a % d == r
  {
    var q0 := a / d;
    var r0 := a % d;
    assert a == q0 * d + r0;
    assert (q - q0) * d == q * d - q0 * d;
    if q > q0 {
      MulAtLeast(q - q0, d);
    } else if q < q0 {
      MulAtLeast(q0 - q, d);
    }
  }

  lemma ModSuccessor(a: nat, d: nat)
    requires d > 0
    ensures (a % d + 1) % d == (a + 1) % d
  {
    var q := a / d;
    var r := a % d;
    assert a == q * d + r;
    if r + 1 < d {
      ModUnique(a + 1, d, q, r + 1);
      ModUnique(r + 1, d, 0, r + 1);
    } else {
      assert a + 1 == (q + 1) * d + 0;
      ModUnique(a + 1, d, q + 1, 0);
      ModUnique(r + 1, d, 1, 0);
    }
  }

  /** The slot index is a round-robin counter: after `m` advances from slot
      `c` with a fixed dynamic count `d`, the current slot is `(c + m) mod d`. */
  lemma {:induction false} AdvanceTimesIsRoundRobin(r: Ring, m: nat)
    requires Valid(r)
    ensures AdvanceTimes(r, m).current == (r.current + m) % r.dynamicCount
    decreases m
  {
    if m == 0 {
      ModUnique(r.current, r.dynamicCount, 0, r.current);
    } else {
      var j: nat := m - 1;
      var prev := AdvanceTimes(r, j);
      AdvanceTimesStep(r, m, j);
      AdvanceTimesIsRoundRobin(r, j);
      assert AdvanceTimes(r, m).current == (prev.current + 1) % r.dynamicCount;
      ModSuccessor(r.current + j, r.dynamicCount);
    }
  }

  lemma AdvanceTimesStep(r: Ring, m: nat, j: nat)
    requires Valid(r) && m == j + 1
    ensures AdvanceTimes(r, m) == EndAndAdvance(AdvanceTimes(r, j)).value
  {
  }

  /** `setDynamicFIFCount` as written: it asserts `count <= fifCount` but then
      stores `fifCount`, so the argument has no effect. */
  function SetDynamicFifCount(r: Ring, count: nat): (r': Ring)
    requires WellFormed(r) && count <= r.fifCount
    ensures WellFormed(r') && r'.frames == r.frames && r'.fifCount == r.fifCount
    ensures r'.dynamicCount == r.fifCount
    ensures r.current < r.fifCount ==> r'.current == r.current
    ensures r.current >= r.fifCount ==> r'.current == 0
  {
    var r1 := r.(dynamicCount := r.fifCount);
    if r1.current >= r1.dynamicCount then r1.(current := 0) else r1
  }

  /** The defect: asking for fewer slots than there are frames in flight
      leaves the dynamic count at the full number of frames. */
  lemma SetDynamicFifCountIgnoresCount(r: Ring, count: nat)
    requires Valid(r) && count < r.fifCount
    ensures SetDynamicFifCount(r, count).dynamicCount != count
    ensures SetDynamicFifCount(r, count).current == r.current
  {
  }

  /** `setDynamicFIFCount` as evidently intended: stores `count`, and falls
      back to slot 0 when the current slot no longer fits. A count of 0 would
      make the next advance divide by zero, so it is excluded. */
  function SetDynamicFifCountIntended(r: Ring, count: nat): (r': Ring)
    requires WellFormed(r) && 0 < count <= r.fifCount
    ensures Valid(r') && r'.frames == r.frames && r'.fifCount == r.fifCount
    ensures r'.dynamicCount == count
    ensures r.current < count ==> r'.current == r.current
    ensures r.current >= count ==> r'.current == 0
  {
    var r1 := r.(dynamicCount := count);
    if r1.current >= r1.dynamicCount then r1.(current := 0) else r1
  }

  /** With the corrected setter the ring cycles through exactly the first
      `count` slots: `count` advances return to the starting slot, and no
      slot at or above `count` is ever current. */
  lemma IntendedDynamicCountBoundsRing(r: Ring, count: nat, m: nat)
    requires WellFormed(r) && 0 < count <= r.fifCount
    ensures var s := SetDynamicFifCountIntended(r, count);
            && AdvanceTimes(s, m).current < count
            && AdvanceTimes(s, count).current == s.current
  {
    var s := SetDynamicFifCountIntended(r, count);
    AdvanceTimesIsRoundRobin(s, m);
    AdvanceTimesIsRoundRobin(s, count);
    ModUnique(s.current + count, count, 1, s.current);
  }

  /** With no frames in flight the ring has no slot to begin: the lookup of
      slot 0 is out of range. */
  lemma ZeroFramesInFlightHasNoSlot()
    ensures Begin(NewRing(0)).None?
    ensures EndAndAdvance(NewRing(0)).None?
  {
  }
}

=== FILE: events.dfy ===
/** The driver-facing effects of the graphics engine, recorded as an event
    trace instead of being performed. A slot is a frame-in-flight index;
    callbacks are named by the ids their owner chose. */
module GraphicsTrace {
  datatype Event =
    | FenceWait(slot: nat)
    | FenceReset(slot: nat)
    | AcquireImage(slot: nat)
    | BeginRecording(slot: nat)
    | EndRecording(slot: nat)
    | Submit(slot: nat)
    | Present(slot: nat)
    | WaitIdle
    | BeforeDestroy(callback: nat)
    | RebuildSwapchain
    | AfterCreate(callback: nat)
    | InterFrameJob
    | FrameJob(slot: nat)
}

=== FILE: frame_sync.dfy ===
/** The per-slot synchronisation set of the graphics engine. Its semaphores
    and fence are driver objects; what is modelled is the flag saying that a
    submission on the slot's fence has not been waited for yet. */
module FrameSync {
  import opened GraphicsTrace

  datatype Sync = Sync(needFenceWait: bool)

  /** A new set is disarmed. */
  function NewSync(): (s: Sync)
    ensures !s.needFenceWait
  {
    Sync(false)
  }

  /** `waitIfNeeded` for slot `slot`: when armed, waits on the fence, resets it
      and disarms, in that order; when disarmed, does nothing. */
  function WaitIfNeeded(s: Sync, slot: nat): (r: (Sync, seq<Event>))
    ensures !r.0.needFenceWait
    ensures s.needFenceWait ==> r.1 == [FenceWait(slot), FenceReset(slot)]
    ensures !s.needFenceWait ==> r == (s, [])
  {
    if s.needFenceWait then (Sync(false), [FenceWait(slot), FenceReset(slot)])
    else (s, [])
  }

  /** Waiting twice is waiting once: an armed submission is waited on at
      most once. */
  lemma WaitIfNeededIdempotent(s: Sync, slot: nat)
    ensures var (s1, e1) := WaitIfNeeded(s, slot);
            var (s2, e2) := WaitIfNeeded(s1, slot);
            s2 == s1 && e2 == []
  {
  }

  /** Counts the fence waits on `slot` in a trace. */
  function FenceWaits(trace: seq<Event>, slot: nat): nat
    decreases |trace|
  {
    if trace == [] then 0
    else FenceWaits(trace[..|trace| - 1], slot) + (if trace[|trace| - 1] == FenceWait(slot) then 1 else 0)
  }

  lemma FenceWaitsAppend(a: seq<Event>, b: seq<Event>, slot: nat)
    ensures FenceWaits(a + b, slot) == FenceWaits(a, slot) + FenceWaits(b, slot)
    decreases |b|
  {
    if b == [] {
      assert a + b == a;
    } else {
      var n := |b| - 1;
      assert (a + b)[..|a + b| - 1] == a + b[..n];
      FenceWaitsAppend(a, b[..n], slot);
    }
  }

  /** One slot over time: each entry of `arms` is one `waitIfNeeded` call,
      preceded by a submission that arms the slot when the entry is true. */
  function WaitSchedule(s: Sync, slot: nat, arms: seq<bool>): (r: (Sync, seq<Event>))
    decreases |arms|
  {
    if arms == [] then (s, [])
    else
      var (s1, e1) := WaitSchedule(s, slot, arms[..|arms| - 1]);
      var armed := if arms[|arms| - 1] then Sync(true) else s1;
      var (s2, e2) := WaitIfNeeded(armed, slot);
      (s2, e1 + e2)
  }

  function CountTrue(arms: seq<bool>): nat
    decreases |arms|
  {
    if arms == [] then 0
    else CountTrue(arms[..|arms| - 1]) + (if arms[|arms| - 1] then 1 else 0)
  }

  /** Every arming is matched by exactly one fence wait, however many extra
      `waitIfNeeded` calls come between. */
  lemma {:induction false} EachArmingWaitedOnce(slot: nat, arms: seq<bool>)
    ensures FenceWaits(WaitSchedule(NewSync(), slot, arms).1, slot) == CountTrue(arms)
    ensures !WaitSchedule(NewSync(), slot, arms).0.needFenceWait
    decreases |arms|
  {
    if arms != [] {
      var prefix := arms[..|arms| - 1];
      EachArmingWaitedOnce(slot, prefix);
      var (s1, e1) := WaitSchedule(NewSync(), slot, prefix);
      var armed := if arms[|arms| - 1] then Sync(true) else s1;
      var (s2, e2) := WaitIfNeeded(armed, slot);
      FenceWaitsAppend(e1, e2, slot);
      if arms[|arms| - 1] {
        assert e2 == [FenceWait(slot), FenceReset(slot)];
        ArmedWaitCountsOne(slot);
      } else {
        assert e2 == [];
      }
    }
  }

  /** The events of a wait on an armed slot hold one fence wait. */
  lemma ArmedWaitCountsOne(slot: nat)
    ensures FenceWaits([FenceWait(slot), FenceReset(slot)], slot) == 1
  {
    var one := [FenceWait(slot)];
    assert one[..0] == [];
    assert FenceWaits(one, slot) == 1;
    assert [FenceWait(slot), FenceReset(slot)][..1] == one;
  }

  /** What happens to one slot: a submission that arms it (`m_endFrame`), or
      a `waitIfNeeded` call (`m_beginFrame`). */
  datatype SyncOp = Arm | Wait

  /** One slot over any sequence of armings and waits. */
  function RunSync(s: Sync, slot: nat, ops: seq<SyncOp>): (r: (Sync, seq<Event>))
    decreases |ops|
  {
    if ops == [] then (s, [])
    else
      var (s1, e1) := RunSync(s, slot, ops[..|ops| - 1]);
      match ops[|ops| - 1]
      case Arm => (Sync(true), e1)
      case Wait =>
        var (s2, e2) := WaitIfNeeded(s1, slot);
        (s2, e1 + e2)
  }

  /** The waits that come right after an arming. */
  function WaitsAfterArming(ops: seq<SyncOp>): nat
    decreases |ops|
  {
    if |ops| < 2 then 0
    else WaitsAfterArming(ops[..|ops| - 1]) + (if ops[|ops| - 1] == Wait && ops[|ops| - 2] == Arm then 1 else 0)
  }

  /** From a new set, over any sequence of armings and waits: a wait reaches
      the fence exactly when it comes right after an arming, so repeated
      armings are waited on once and repeated waits cost nothing; and the
      slot is left armed exactly when the last thing that happened to it was
      an arming, as at the end of every frame. */
  lemma {:induction false} WaitsFollowArmings(slot: nat, ops: seq<SyncOp>)
    ensures FenceWaits(RunSync(NewSync(), slot, ops).1, slot) == WaitsAfterArming(ops)
    ensures RunSync(NewSync(), slot, ops).0.needFenceWait <==> |ops| > 0 && ops[|ops| - 1] == Arm
    decreases |ops|
  {
    if ops != [] {
      var n := |ops| - 1;
      var prefix := ops[..n];
      WaitsFollowArmings(slot, prefix);
      var (s1, e1) := RunSync(NewSync(), slot, prefix);
      if ops[n] == Wait {
        var (s2, e2) := WaitIfNeeded(s1, slot);
        FenceWaitsAppend(e1, e2, slot);
        if n > 0 {
          assert prefix[|prefix| - 1] == ops[n - 1];
        }
        if s1.needFenceWait {
          ArmedWaitCountsOne(slot);
        } else {
          assert e2 == [];
          assert e1 + e2 == e1;
        }
      }
    }
  }
}

=== FILE: graphics.dfy ===
/** The graphics engine: a framed engine with one synchronisation set per
    slot, a swapchain that is rebuilt when the surface changes, and the
    begin/end frame loop. Driver calls are appended to `trace`; the acquire
    status and the surface extent are inputs. */
module Graphics {
  import opened Wrappers
  import opened QueueLock
  import QueueRegistry
  import opened Engines
  import opened FrameSync
  import opened GraphicsTrace
  import opened SwapchainSetup

  datatype AcquireStatus = Ok | Timeout | OutOfDate | Suboptimal

  /** A registered (before-destroy, after-create) callback pair. */
  datatype CallbackPair = CallbackPair(beforeDestroy: nat, afterCreate: nat)

  /** `inProgress` is the slot of the frame begun and not yet ended;
      `swapchainGeneration` counts the swapchains built so far. */
  datatype GraphicsEngine = GraphicsEngine(
    base: EngineBase,
    ring: Ring,
    syncs: seq<Sync>,
    inProgress: Option<nat>,
    swapchainGeneration: nat,
    callbacks: seq<CallbackPair>,
    trace: seq<Event>)

  /** The graphics engine asks for a queue that can do everything. */
  const ALL_CAPS: QueueRegistry.QueueCapsInfo := QueueRegistry.QueueCapsInfo(true, true, true, true)

  /** The engine's invariant: the ring is valid, there is one sync set per
      frame in flight, and a frame in progress is the current slot, which is
      recording. */
  ghost predicate Valid(g: GraphicsEngine) {
    && Engines.Valid(g.ring)
    && |g.syncs| == g.ring.fifCount
    && (g.inProgress.Some? ==>
          g.inProgress.value == g.ring.current && g.ring.frames[g.ring.current].recording)
  }

  /** The constructor. The frame count must be positive (the source asserts
      it); the queue is requested with all four capabilities; every slot gets
      a disarmed sync set; the first swapchain is built. */
  function NewGraphicsEngine(reg: QueueRegistry.Registry, families: seq<QueueRegistry.QueueFamily>, n: nat)
    : (r: Result<(QueueRegistry.Registry, GraphicsEngine), QueueRegistry.RegistryError>)
    requires QueueRegistry.Valid(reg) && QueueRegistry.KnowsFamilies(reg, families) && n > 0
    ensures r.Failure? <==> NewEngineBase(reg, families, ALL_CAPS).Failure?
    ensures r.Success? ==>
              var (reg', g) := r.value;
              && (reg', g.base) == NewEngineBase(reg, families, ALL_CAPS).value
              && Valid(g) && g.ring.fifCount == n && g.ring.current == 0
              && (forall i :: 0 <= i < n ==> !g.syncs[i].needFenceWait)
              && g.inProgress.None? && g.callbacks == [] && g.swapchainGeneration == 1
              && g.trace == [RebuildSwapchain]
  {
    var (reg', base) :- NewEngineBase(reg, families, ALL_CAPS);
    Success((reg', GraphicsEngine(base, NewRing(n), seq(n, _ => NewSync()), None, 1, [], [RebuildSwapchain])))
  }

  /** `m_surface_minimized`: a zero width or height. */
  predicate Minimized(extent: Extent) {
    extent.width == 0 || extent.height == 0
  }

  /** The before-destroy callbacks, in registration order. */
  function BeforeEvents(cbs: seq<CallbackPair>): (es: seq<Event>)
    ensures |es| == |cbs|
    ensures forall i :: 0 <= i < |cbs| ==> es[i] == BeforeDestroy(cbs[i].beforeDestroy)
    decreases |cbs|
  {
    if cbs == [] then [] else [BeforeDestroy(cbs[0].beforeDestroy)] + BeforeEvents(cbs[1..])
  }

  /** The after-create callbacks, in registration order. */
  function AfterEvents(cbs: seq<CallbackPair>): (es: seq<Event>)
    ensures |es| == |cbs|
    ensures forall i :: 0 <= i < |cbs| ==> es[i] == AfterCreate(cbs[i].afterCreate)
    decreases |cbs|
  {
    if cbs == [] then [] else [AfterCreate(cbs[0].afterCreate)] + AfterEvents(cbs[1..])
  }

  /** What `m_recreate_swapchain` does, in order: wait the queue idle, every
      before-destroy callback in registration order, the rebuild, every
      after-create callback in registration order. */
  function RecreateEvents(cbs: seq<CallbackPair>): (es: seq<Event>)
    ensures var n := |cbs|;
            && |es| == 2 * n + 2
            && es[0] == WaitIdle
            && (forall i :: 0 <= i < n ==> es[1 + i] == BeforeDestroy(cbs[i].beforeDestroy))
            && es[1 + n] == RebuildSwapchain
            && (forall i :: 0 <= i < n ==> es[2 + n + i] == AfterCreate(cbs[i].afterCreate))
  {
    var before := BeforeEvents(cbs);
    var after := AfterEvents(cbs);
    var es := [WaitIdle] + before + [RebuildSwapchain] + after;
    assert forall i :: 0 <= i < |cbs| ==> es[1 + i] == before[i];
    assert forall i :: 0 <= i < |cbs| ==> es[2 + |cbs| + i] == after[i];
    es
  }

  /** `m_recreate_swapchain`: the callbacks around the rebuild run as
      `RecreateEvents` lists them; only the trace and the swapchain change. */
  function Recreate(g: GraphicsEngine): (g': GraphicsEngine)
    ensures g'.trace == g.trace + RecreateEvents(g.callbacks)
    ensures g'.swapchainGeneration == g.swapchainGeneration + 1
    ensures g'.(swapchainGeneration := g.swapchainGeneration, trace := g.trace) == g
  {
    g.(swapchainGeneration := g.swapchainGeneration + 1,
       trace := g.trace + RecreateEvents(g.callbacks))
  }

  /** The events of the wait on slot `slot`'s sync set. */
  function WaitEvents(armed: bool, slot: nat): seq<Event> {
    if armed then [FenceWait(slot), FenceReset(slot)] else []
  }

  /** `m_beginFrame`. No frame may be in progress. The current slot's sync
      set is waited on if armed, then an image is acquired. A timeout yields
      no frame and changes nothing else; an out-of-date or suboptimal
      swapchain yields no frame and is rebuilt unless the surface is
      minimised; success begins the current slot's frame. The slot never
      moves. */
  function BeginFrame(g: GraphicsEngine, status: AcquireStatus, extent: Extent)
    : (r: (GraphicsEngine, Option<nat>))
    requires Valid(g) && g.inProgress.None?
    ensures var (g', frame) := r;
            var slot := g.ring.current;
            var prefix := g.trace + WaitEvents(g.syncs[slot].needFenceWait, slot) + [AcquireImage(slot)];
            var recreated := (status == OutOfDate || status == Suboptimal) && !Minimized(extent);
            && Valid(g') && g'.ring.current == slot && g'.ring.dynamicCount == g.ring.dynamicCount
            && g'.ring.fifCount == g.ring.fifCount
            && g'.callbacks == g.callbacks && g'.base == g.base
            && (frame.Some? <==> status == Ok)
            && (frame.Some? ==> frame.value == slot && g'.inProgress == frame)
            && (frame.None? ==> g'.inProgress.None? && g'.ring == g.ring)
            && |g'.syncs| == |g.syncs| && !g'.syncs[slot].needFenceWait
            && (forall i :: 0 <= i < |g.syncs| && i != slot ==> g'.syncs[i] == g.syncs[i])
            && g'.swapchainGeneration == g.swapchainGeneration + (if recreated then 1 else 0)
            && g'.trace == prefix + (if status == Ok then [BeginRecording(slot)]
                                     else if recreated then RecreateEvents(g.callbacks)
                                     else [])
  {
    var slot := g.ring.current;
    var (sync', waits) := WaitIfNeeded(g.syncs[slot], slot);
    var g1 := g.(syncs := g.syncs[slot := sync'], trace := g.trace + waits + [AcquireImage(slot)]);
    match status
    case Timeout => (g1, None)
    case OutOfDate => (if Minimized(extent) then g1 else Recreate(g1), None)
    case Suboptimal => (if Minimized(extent) then g1 else Recreate(g1), None)
    case Ok =>
      var (ring', _) := Begin(g1.ring).value;
      (g1.(ring := ring', inProgress := Some(slot), trace := g1.trace + [BeginRecording(slot)]), Some(slot))
  }

  /** `m_endFrame`. A frame must be in progress. The sync set used is the one
      of the recording slot, read before the ring advances; the frame's
      recording is ended and the ring advanced once; then the work is
      submitted and presented, the slot's fence is armed and no frame is in
      progress any more. */
  function EndFrame(g: GraphicsEngine): (g': GraphicsEngine)
    requires Valid(g) && g.inProgress.Some?
    ensures var slot := g.inProgress.value;
            && Valid(g') && g'.inProgress.None?
            && g'.ring.current == (slot + 1) % g.ring.dynamicCount
            && g'.ring.dynamicCount == g.ring.dynamicCount && g'.ring.fifCount == g.ring.fifCount
            && !g'.ring.frames[slot].recording
            && |g'.syncs| == |g.syncs| && g'.syncs[slot].needFenceWait
            && (forall i :: 0 <= i < |g.syncs| && i != slot ==> g'.syncs[i] == g.syncs[i])
            && g'.callbacks == g.callbacks && g'.base == g.base
            && g'.swapchainGeneration == g.swapchainGeneration
            && g'.trace == g.trace + [EndRecording(slot), Submit(slot), Present(slot)]
  {
    var slot := g.ring.current;
    var ring' := EndAndAdvance(g.ring).value;
    g.(ring := ring', syncs := g.syncs[slot := Sync(true)], inProgress := None,
       trace := g.trace + [EndRecording(slot), Submit(slot), Present(slot)])
  }

  /** `addSwapchainCallback`: the pair goes after every pair registered
      before it. */
  function AddSwapchainCallback(g: GraphicsEngine, beforeDestroy: nat, afterCreate: nat): (g': GraphicsEngine)
    ensures |g'.callbacks| == |g.callbacks| + 1
    ensures g'.callbacks[..|g.callbacks|] == g.callbacks
    ensures g'.callbacks[|g.callbacks|] == CallbackPair(beforeDestroy, afterCreate)
    ensures g'.(callbacks := g.callbacks) == g
  {
    g.(callbacks := g.callbacks + [CallbackPair(beforeDestroy, afterCreate)])
  }

  /** `m_terminate`, run by the guard when `run` is left. */
  function Terminate(g: GraphicsEngine): (g': GraphicsEngine)
    ensures g'.trace == g.trace + [WaitIdle]
    ensures g'.(trace := g.trace) == g
  {
    g.(trace := g.trace + [WaitIdle])
  }

  /*** The run loop ***/

  /** One round of `run` as seen from outside: what the inter-frame job
      returns, what the driver reports when an image is acquired, and
      whether one of the round's calls throws. `throwAt == Some(i)` makes
      call `i` of the round throw, counted from 0 in the order `RoundEvents`
      lists them (the round's last call when it makes fewer). Any of them
      can: the two jobs, a callback, or a driver call reporting an error. */
  datatype Tick = Tick(keepGoing: bool, status: AcquireStatus, extent: Extent, throwAt: Option<nat>)

  /** The round leaves `run`: its inter-frame job returns false, or one of
      its calls throws. */
  predicate Ends(t: Tick) {
    !t.keepGoing || t.throwAt.Some?
  }

  /** The script stops: some round leaves `run`. */
  predicate HasStop(script: seq<Tick>)
    decreases |script|
  {
    |script| > 0 && (Ends(script[0]) || HasStop(script[1..]))
  }

  /** The round that leaves `run` does so because the inter-frame job
      returned false, not through an exception. */
  predicate ReturnsNormally(script: seq<Tick>)
    requires HasStop(script)
    decreases |script|
  {
    if Ends(script[0]) then script[0].throwAt.None? else ReturnsNormally(script[1..])
  }

  /** How `run` is left: it returns, with the engine as it then is, or an
      exception propagates out of it after the events listed. */
  datatype RunResult = Returned(engine: GraphicsEngine) | Propagated(events: seq<Event>)

  /** The events recorded up to the moment `run` is left. */
  function Events(r: RunResult): seq<Event> {
    match r
    case Returned(g) => g.trace
    case Propagated(es) => es
  }

  /** The events of an iteration after the acquire: a begun frame is
      recorded, handed to the frame job, ended, submitted and presented; a
      stale swapchain is rebuilt unless the surface is minimised. */
  function IterationTail(g: GraphicsEngine, t: Tick): seq<Event> {
    var slot := g.ring.current;
    if t.status == Ok then
      [BeginRecording(slot), FrameJob(slot), EndRecording(slot), Submit(slot), Present(slot)]
    else if (t.status == OutOfDate || t.status == Suboptimal) && !Minimized(t.extent) then
      RecreateEvents(g.callbacks)
    else []
  }

  /** One iteration after the inter-frame job returned true: begin, and if a
      frame was begun, the frame job on it and its end. The frame job runs
      exactly on a begun frame, between its begin and its end. */
  function Iteration(g: GraphicsEngine, t: Tick): (g': GraphicsEngine)
    requires Valid(g) && g.inProgress.None?
    ensures Valid(g') && g'.inProgress.None? && g'.callbacks == g.callbacks && g'.base == g.base
    ensures g'.ring.dynamicCount == g.ring.dynamicCount && g'.ring.fifCount == g.ring.fifCount
    ensures |g'.trace| > |g.trace| && g'.trace[..|g.trace|] == g.trace
    ensures t.status == Ok ==> g'.ring.current == (g.ring.current + 1) % g.ring.dynamicCount
    ensures t.status != Ok ==> g'.ring == g.ring
  {
    var (g1, frame) := BeginFrame(g.(trace := g.trace + [InterFrameJob]), t.status, t.extent);
    if frame.None? then g1
    else EndFrame(g1.(trace := g1.trace + [FrameJob(frame.value)]))
  }

  /** The events one iteration appends, in order. */
  lemma IterationTrace(g: GraphicsEngine, t: Tick)
    requires Valid(g) && g.inProgress.None?
    ensures var slot := g.ring.current;
            Iteration(g, t).trace
              == g.trace + [InterFrameJob] + WaitEvents(g.syncs[slot].needFenceWait, slot)
                 + [AcquireImage(slot)] + IterationTail(g, t)
  {
  }

  /** The calls of a round up to and including the acquire. */
  function Prelude(g: GraphicsEngine): seq<Event>
    requires Valid(g)
  {
    var slot := g.ring.current;
    [InterFrameJob] + WaitEvents(g.syncs[slot].needFenceWait, slot) + [AcquireImage(slot)]
  }

  /** The calls a round makes when none of them throws: only the
      inter-frame job when it returns false, otherwise the calls of an
      iteration. */
  function RoundEvents(g: GraphicsEngine, t: Tick): (es: seq<Event>)
    requires Valid(g)
    ensures |es| > 0 && es[0] == InterFrameJob
  {
    if !t.keepGoing then [InterFrameJob]
    else
      var pre := Prelude(g);
      assert pre[0] == InterFrameJob;
      pre + IterationTail(g, t)
  }

  /** A round that goes on makes exactly the calls its iteration appends. */
  lemma RoundEventsAreIteration(g: GraphicsEngine, t: Tick)
    requires Valid(g) && g.inProgress.None? && t.keepGoing
    ensures g.trace + RoundEvents(g, t) == Iteration(g, t).trace
  {
    var slot := g.ring.current;
    IterationTrace(g, t);
    Regroup4(g.trace, [InterFrameJob], WaitEvents(g.syncs[slot].needFenceWait, slot), [AcquireImage(slot)],
             IterationTail(g, t));
  }

  lemma Regroup4(x: seq<Event>, a: seq<Event>, w: seq<Event>, c: seq<Event>, tl: seq<Event>)
    ensures x + (a + w + c + tl) == x + a + w + c + tl
  {
  }

  /** The calls a round makes when call `at` throws: that call and every
      call before it, and none after. */
  function ThrownEvents(g: GraphicsEngine, t: Tick, at: nat): (es: seq<Event>)
    requires Valid(g)
    ensures 0 < |es| <= |RoundEvents(g, t)| && es == RoundEvents(g, t)[..|es|]
    ensures at < |RoundEvents(g, t)| ==> |es| == at + 1
    ensures es[0] == InterFrameJob
  {
    var all := RoundEvents(g, t);
    all[..if at < |all| then at + 1 else |all|]
  }

  /** `run` as a recursive definition: iterate until a round leaves. When
      the inter-frame job returns false the guard terminates the engine and
      `run` returns; when a call throws, the guard's wait for the queue to
      go idle runs while the exception propagates. */
  function RunSpec(g: GraphicsEngine, script: seq<Tick>): (r: RunResult)
    requires Valid(g) && g.inProgress.None? && HasStop(script)
    ensures r.Returned? <==> ReturnsNormally(script)
    ensures r.Returned? ==>
              && Valid(r.engine) && r.engine.inProgress.None?
              && r.engine.callbacks == g.callbacks && r.engine.base == g.base
    decreases |script|
  {
    var t := script[0];
    if t.throwAt.Some? then Propagated(g.trace + ThrownEvents(g, t, t.throwAt.value) + [WaitIdle])
    else if !t.keepGoing then Returned(Terminate(g.(trace := g.trace + [InterFrameJob])))
    else RunSpec(Iteration(g, t), script[1..])
  }

  lemma PrefixOfPrefix(a: seq<Event>, b: seq<Event>, c: seq<Event>)
    requires |a| < |b| < |c| && b[..|a|] == a && c[..|b|] == b
    ensures c[..|a|] == a
  {
    assert c[..|a|] == c[..|b|][..|a|];
  }

  /** A run only appends to the trace, and however it is left, returning or
      by an exception, the last thing it does is wait the queue idle. */
  lemma {:induction false} RunExtendsTrace(g: GraphicsEngine, script: seq<Tick>)
    requires Valid(g) && g.inProgress.None? && HasStop(script)
    ensures |Events(RunSpec(g, script))| > |g.trace|
    ensures Events(RunSpec(g, script))[..|g.trace|] == g.trace
    ensures Last(Events(RunSpec(g, script))) == WaitIdle
    decreases |script|
  {
    var t := script[0];
    var tr := Events(RunSpec(g, script));
    if t.throwAt.Some? {
      var es := ThrownEvents(g, t, t.throwAt.value);
      assert tr == g.trace + es + [WaitIdle];
      assert tr[..|g.trace|] == g.trace;
      LastOfAppend(g.trace + es, WaitIdle);
    } else if !t.keepGoing {
      assert tr == g.trace + [InterFrameJob, WaitIdle];
      LastOfAppend(g.trace + [InterFrameJob], WaitIdle);
    } else {
      var next := Iteration(g, t);
      RunExtendsTrace(next, script[1..]);
      PrefixOfPrefix(g.trace, next.trace, Events(RunSpec(next, script[1..])));
    }
  }

  /** The last event of a non-empty trace. */
  function Last(s: seq<Event>): Event
    requires |s| > 0
  {
    s[|s| - 1]
  }

  lemma LastOfAppend(s: seq<Event>, e: Event)
    ensures Last(s + [e]) == e
  {
  }

  /** `run`: calls the inter-frame job before each iteration and stops the
      first time it returns false; an iteration whose begin yields no frame
      skips the frame job and the end. The terminator guard waits the queue
      idle on the way out, whether `run` returns or an exception leaves it. */
  method Run(g: GraphicsEngine, script: seq<Tick>) returns (r: RunResult)
    requires Valid(g) && g.inProgress.None? && HasStop(script)
    ensures r == RunSpec(g, script)
    ensures r.Returned? <==> ReturnsNormally(script)
    ensures r.Returned? ==> Valid(r.engine) && r.engine.inProgress.None?
    ensures |Events(r)| > |g.trace| && Events(r)[..|g.trace|] == g.trace
    ensures Last(Events(r)) == WaitIdle
  {
    var cur := g;
    var i := 0;
    while !Ends(script[i])
      invariant 0 <= i < |script| && HasStop(script[i..])
      invariant Valid(cur) && cur.inProgress.None?
      invariant RunSpec(cur, script[i..]) == RunSpec(g, script)
      decreases |script| - i
    {
      assert script[i..][1..] == script[i + 1..];
      cur := Iteration(cur, script[i]);
      i := i + 1;
    }
    var t := script[i];
    if t.throwAt.Some? {
      r := Propagated(cur.trace + ThrownEvents(cur, t, t.throwAt.value) + [WaitIdle]);
    } else {
      r := Returned(Terminate(cur.(trace := cur.trace + [InterFrameJob])));
    }
    RunExtendsTrace(g, script);
  }

  /*** Counting what a run does ***/

  /** The kinds of event a run is counted by. */
  datatype Kind = InterFrameJobs | FramesRecorded | FrameJobs | FramesEnded

  predicate OfKind(e: Event, k: Kind) {
    match k
    case InterFrameJobs => e.InterFrameJob?
    case FramesRecorded => e.BeginRecording?
    case FrameJobs => e.FrameJob?
    case FramesEnded => e.EndRecording?
  }

  /** The number of events of `trace` of kind `k`. */
  function Count(trace: seq<Event>, k: Kind): nat
    decreases |trace|
  {
    if trace == [] then 0
    else (if OfKind(trace[0], k) then 1 else 0) + Count(trace[1..], k)
  }

  lemma {:induction false} CountAppend(a: seq<Event>, b: seq<Event>, k: Kind)
    ensures Count(a + b, k) == Count(a, k) + Count(b, k)
    decreases |a|
  {
    if a == [] {
      assert a + b == b;
    } else {
      assert (a + b)[1..] == a[1..] + b;
      CountAppend(a[1..], b, k);
    }
  }

  lemma {:induction false} CountNone(s: seq<Event>, k: Kind)
    requires forall i :: 0 <= i < |s| ==> !OfKind(s[i], k)
    ensures Count(s, k) == 0
    decreases |s|
  {
    if s != [] {
      CountNone(s[1..], k);
    }
  }

  /** The rounds before the one that leaves `run`. */
  function Iterations(script: seq<Tick>): nat
    requires HasStop(script)
    decreases |script|
  {
    if Ends(script[0]) then 0 else 1 + Iterations(script[1..])
  }

  /** The rounds before the one that leaves `run` whose acquire succeeded. */
  function FramesBegun(script: seq<Tick>): nat
    requires HasStop(script)
    decreases |script|
  {
    if Ends(script[0]) then 0
    else (if script[0].status == Ok then 1 else 0) + FramesBegun(script[1..])
  }

  /** Outside the frame, an iteration's events hold one inter-frame job and
      nothing else that is counted. */
  lemma MiddleCount(armed: bool, slot: nat, k: Kind)
    ensures Count([InterFrameJob] + WaitEvents(armed, slot) + [AcquireImage(slot)], k)
         == if k == InterFrameJobs then 1 else 0
  {
    var rest := WaitEvents(armed, slot) + [AcquireImage(slot)];
    assert [InterFrameJob] + WaitEvents(armed, slot) + [AcquireImage(slot)] == [InterFrameJob] + rest;
    CountAppend([InterFrameJob], rest, k);
    assert [InterFrameJob][1..] == [];
    CountNone(rest, k);
  }

  /** After the acquire, a begun frame contributes one recording begun, one
      frame job and one recording ended; a rebuild contributes nothing
      counted. */
  lemma TailCount(g: GraphicsEngine, t: Tick, k: Kind)
    ensures Count(IterationTail(g, t), k) == if t.status == Ok && k != InterFrameJobs then 1 else 0
  {
    var tail := IterationTail(g, t);
    if t.status == Ok {
      var slot := g.ring.current;
      var s4 := [Present(slot)];
      var s3 := [Submit(slot)] + s4;
      var s2 := [EndRecording(slot)] + s3;
      var s1 := [FrameJob(slot)] + s2;
      assert tail == [BeginRecording(slot)] + s1;
      CountCons(BeginRecording(slot), s1, k);
      CountCons(FrameJob(slot), s2, k);
      CountCons(EndRecording(slot), s3, k);
      CountCons(Submit(slot), s4, k);
      CountCons(Present(slot), [], k);
      assert s4 == [Present(slot)] + [];
    } else {
      CountNone(tail, k);
    }
  }

  lemma CountCons(e: Event, s: seq<Event>, k: Kind)
    ensures Count([e] + s, k) == (if OfKind(e, k) then 1 else 0) + Count(s, k)
  {
    assert ([e] + s)[1..] == s;
  }

  lemma Regroup(a: seq<Event>, b: seq<Event>, c: seq<Event>, d: seq<Event>, e: seq<Event>)
    ensures a + b + c + d + e == a + (b + c + d) + e
  {
  }

  /** The kinds counted in one iteration: one inter-frame job; and, exactly
      when the acquire succeeds, one recording begun, one frame job and one
      recording ended. */
  lemma IterationCounts(g: GraphicsEngine, t: Tick, k: Kind)
    requires Valid(g) && g.inProgress.None?
    ensures Count(Iteration(g, t).trace, k)
         == Count(g.trace, k) + (if k == InterFrameJobs || t.status == Ok then 1 else 0)
  {
    var slot := g.ring.current;
    var armed := g.syncs[slot].needFenceWait;
    var middle := [InterFrameJob] + WaitEvents(armed, slot) + [AcquireImage(slot)];
    var tail := IterationTail(g, t);
    IterationTrace(g, t);
    Regroup(g.trace, [InterFrameJob], WaitEvents(armed, slot), [AcquireImage(slot)], tail);
    CountAppend(g.trace + middle, tail, k);
    CountAppend(g.trace, middle, k);
    MiddleCount(armed, slot, k);
    TailCount(g, t, k);
  }

  lemma CountSnoc(s: seq<Event>, e: Event, k: Kind)
    ensures Count(s + [e], k) == Count(s, k) + (if OfKind(e, k) then 1 else 0)
  {
    CountAppend(s, [e], k);
    CountCons(e, [], k);
    assert [e] + [] == [e];
  }

  /** The calls of a begun frame after the acquire, cut after `j` of them:
      the recording is begun by the first, the frame job is the second and
      the recording is ended by the third. */
  lemma {:induction false} FramePrefixCounts(slot: nat, j: nat, k: Kind)
    requires j <= 5
    ensures var s := [BeginRecording(slot), FrameJob(slot), EndRecording(slot), Submit(slot), Present(slot)];
            Count(s[..j], k)
              == if (k == FramesRecorded && j >= 1) || (k == FrameJobs && j >= 2) || (k == FramesEnded && j >= 3)
                 then 1 else 0
    decreases j
  {
    var s := [BeginRecording(slot), FrameJob(slot), EndRecording(slot), Submit(slot), Present(slot)];
    if j > 0 {
      var i: nat := j - 1;
      FramePrefixCounts(slot, i, k);
      assert s[..j] == s[..i] + [s[i]];
      CountSnoc(s[..i], s[i], k);
    }
  }

  /** A prefix of the calls up to the acquire holds its inter-frame job and
      nothing else that is counted. */
  lemma PreludePrefixCount(g: GraphicsEngine, m: nat, k: Kind)
    requires Valid(g) && 0 < m <= |Prelude(g)|
    ensures Count(Prelude(g)[..m], k) == if k == InterFrameJobs then 1 else 0
  {
    var pre := Prelude(g);
    var es := pre[..m];
    assert es == [InterFrameJob] + es[1..];
    CountCons(InterFrameJob, es[1..], k);
    assert forall i :: 0 <= i < |es[1..]| ==> es[1..][i] == pre[i + 1];
    CountNone(es[1..], k);
  }

  /** The calls up to the acquire followed by the first `j` calls after it. */
  lemma TailPrefixCount(g: GraphicsEngine, t: Tick, j: nat, k: Kind)
    requires Valid(g) && j <= |IterationTail(g, t)|
    ensures Count(Prelude(g) + IterationTail(g, t)[..j], k)
              == if k == InterFrameJobs then 1
                 else if t.status == Ok && ((k == FramesRecorded && j >= 1) || (k == FrameJobs && j >= 2)
                                            || (k == FramesEnded && j >= 3))
                 then 1 else 0
  {
    var slot := g.ring.current;
    var tail := IterationTail(g, t);
    CountAppend(Prelude(g), tail[..j], k);
    MiddleCount(g.syncs[slot].needFenceWait, slot, k);
    if t.status == Ok {
      assert tail == [BeginRecording(slot), FrameJob(slot), EndRecording(slot), Submit(slot), Present(slot)];
      FramePrefixCounts(slot, j, k);
    } else {
      StaleTailUncounted(g, t, j, k);
    }
  }

  /** Without a begun frame, the calls after the acquire are a rebuild or
      nothing, and none of them is counted. */
  lemma StaleTailUncounted(g: GraphicsEngine, t: Tick, j: nat, k: Kind)
    requires t.status != Ok && j <= |IterationTail(g, t)|
    ensures Count(IterationTail(g, t)[..j], k) == 0
  {
    CountNone(IterationTail(g, t)[..j], k);
  }

  /** What a round cut short by an exception contributes, kind by kind:
      its inter-frame job, and a begun recording, a frame job and an ended
      recording as far as the round got before the throw. */
  lemma ThrownCount(g: GraphicsEngine, t: Tick, at: nat, k: Kind)
    requires Valid(g)
    ensures var es := ThrownEvents(g, t, at);
            var j := if t.keepGoing && |es| > |Prelude(g)| then |es| - |Prelude(g)| else 0;
            Count(es, k)
              == if k == InterFrameJobs then 1
                 else if t.status == Ok && ((k == FramesRecorded && j >= 1) || (k == FrameJobs && j >= 2)
                                            || (k == FramesEnded && j >= 3))
                 then 1 else 0
  {
    var es := ThrownEvents(g, t, at);
    var m := |es|;
    var pre := Prelude(g);
    if !t.keepGoing {
      assert es == [InterFrameJob] + [];
      CountCons(InterFrameJob, [], k);
    } else {
      var tail := IterationTail(g, t);
      assert RoundEvents(g, t) == pre + tail;
      if m <= |pre| {
        assert es == pre[..m];
        PreludePrefixCount(g, m, k);
      } else {
        var j := m - |pre|;
        assert es == pre + tail[..j];
        TailPrefixCount(g, t, j, k);
      }
    }
  }

  /** A round cut short by an exception calls the inter-frame job once, and
      ends no more recordings than it hands to the frame job, hands no more
      to the frame job than it begins, and begins at most one, and only when
      the acquire succeeded. */
  lemma ThrownCounts(g: GraphicsEngine, t: Tick, at: nat)
    requires Valid(g)
    ensures var es := ThrownEvents(g, t, at);
            && Count(es, InterFrameJobs) == 1
            && Count(es, FramesEnded) <= Count(es, FrameJobs) <= Count(es, FramesRecorded) <= 1
            && (Count(es, FramesRecorded) == 1 ==> t.keepGoing && t.status == Ok)
  {
    ThrownCount(g, t, at, InterFrameJobs);
    ThrownCount(g, t, at, FramesRecorded);
    ThrownCount(g, t, at, FrameJobs);
    ThrownCount(g, t, at, FramesEnded);
  }

  /** The guard's wait-idle after a thrown round adds nothing counted. */
  lemma ThrownTraceCount(tr: seq<Event>, es: seq<Event>, k: Kind)
    ensures Count(tr + es + [WaitIdle], k) == Count(tr, k) + Count(es, k)
  {
    CountAppend(tr + es, [WaitIdle], k);
    CountAppend(tr, es, k);
    CountCons(WaitIdle, [], k);
    assert [WaitIdle] + [] == [WaitIdle];
  }

  /** Over a whole run: the inter-frame job runs once per iteration plus
      once in the round that leaves `run`, however it is left. When `run`
      returns, every successful acquire begins exactly one recording that
      gets exactly one frame job and one end; an exception can add at most
      one more of each. */
  lemma {:induction false} RunCounts(g: GraphicsEngine, script: seq<Tick>, k: Kind)
    requires Valid(g) && g.inProgress.None? && HasStop(script)
    ensures k == InterFrameJobs ==>
              Count(Events(RunSpec(g, script)), k) == Count(g.trace, k) + Iterations(script) + 1
    ensures k != InterFrameJobs && ReturnsNormally(script) ==>
              Count(Events(RunSpec(g, script)), k) == Count(g.trace, k) + FramesBegun(script)
    ensures k != InterFrameJobs ==>
              Count(g.trace, k) + FramesBegun(script) <= Count(Events(RunSpec(g, script)), k)
                                                      <= Count(g.trace, k) + FramesBegun(script) + 1
    decreases |script|
  {
    var t := script[0];
    if t.throwAt.Some? {
      ThrownTraceCount(g.trace, ThrownEvents(g, t, t.throwAt.value), k);
      ThrownCounts(g, t, t.throwAt.value);
    } else if !t.keepGoing {
      CountAppend(g.trace, [InterFrameJob, WaitIdle], k);
      assert [InterFrameJob, WaitIdle][1..][1..] == [];
      assert g.trace + [InterFrameJob] + [WaitIdle] == g.trace + [InterFrameJob, WaitIdle];
    } else {
      var next := Iteration(g, t);
      IterationCounts(g, t, k);
      RunCounts(next, script[1..], k);
    }
  }

  /** A run that returns records, hands to the frame job and ends the same
      number of frames. One left by an exception may have begun one
      recording more than it handed to the frame job, or handed one more to
      the frame job than it ended, but never both. */
  lemma {:induction false} RunFramesBalanced(g: GraphicsEngine, script: seq<Tick>)
    requires Valid(g) && g.inProgress.None? && HasStop(script)
    requires Count(g.trace, FramesRecorded) == Count(g.trace, FrameJobs) == Count(g.trace, FramesEnded)
    ensures var tr := Events(RunSpec(g, script));
            && Count(tr, FramesEnded) <= Count(tr, FrameJobs) <= Count(tr, FramesRecorded)
            && Count(tr, FramesRecorded) <= Count(tr, FramesEnded) + 1
    ensures ReturnsNormally(script) ==>
              var tr := Events(RunSpec(g, script));
              Count(tr, FramesRecorded) == Count(tr, FrameJobs) == Count(tr, FramesEnded)
    decreases |script|
  {
    var t := script[0];
    if t.throwAt.Some? {
      var es := ThrownEvents(g, t, t.throwAt.value);
      ThrownCounts(g, t, t.throwAt.value);
      ThrownTraceCount(g.trace, es, FramesRecorded);
      ThrownTraceCount(g.trace, es, FrameJobs);
      ThrownTraceCount(g.trace, es, FramesEnded);
    } else if !t.keepGoing {
      RunCounts(g, script, FramesRecorded);
      RunCounts(g, script, FrameJobs);
      RunCounts(g, script, FramesEnded);
    } else {
      var next := Iteration(g, t);
      IterationCounts(g, t, FramesRecorded);
      IterationCounts(g, t, FrameJobs);
      IterationCounts(g, t, FramesEnded);
      RunFramesBalanced(next, script[1..]);
    }
  }
}

=== FILE: linear_table.dfy ===
/** The slot table behind a frame's primitive registry: a vector of optional
    values, a LIFO list of freed indices, and a dummy slot at index 0 that the
    constructor creates so that no live entry is ever given index 0. */
module LinearTable {
  import opened Wrappers

  /** `slots[i] == None` is an empty slot. The reserve chunk size of the source
      only governs vector capacity and is not part of the state. */
  datatype Table<V> = Table(slots: seq<Option<V>>, freeList: seq<nat>)

  /** The invariant the table keeps while its dummy slot exists: every freed
      index is a distinct, empty, non-dummy slot, and every empty non-dummy slot
      is on the free list (no index is leaked). */
  ghost predicate Valid<V>(t: Table<V>) {
    && |t.slots| >= 1
    && t.slots[0].None?
    && (forall k :: 0 <= k < |t.freeList| ==>
          0 < t.freeList[k] < |t.slots| && t.slots[t.freeList[k]].None?)
    && (forall k, l :: 0 <= k < l < |t.freeList| ==> t.freeList[k] != t.freeList[l])
    && (forall i :: 0 < i < |t.slots| && t.slots[i].None? ==> i in t.freeList)
  }

  /** The constructor: one empty dummy slot at index 0 and no freed index. */
  function New<V>(): (t: Table<V>)
    ensures |t.slots| == 1 && t.freeList == []
    ensures Valid(t)
    ensures forall i :: !Contains(t, i)
  {
    Table([None], [])
  }

  predicate Contains<V>(t: Table<V>, index: nat) {
    index < |t.slots| && t.slots[index].Some?
  }

  /** The stored value; the source asserts `contains(index)`. */
  function At<V>(t: Table<V>, index: nat): (v: V)
    requires Contains(t, index)
    ensures t.slots[index] == Some(v)
  {
    t.slots[index].value
  }

  /** Empties slot `index` and pushes `index` on the free list. */
  function Erase<V>(t: Table<V>, index: nat): (r: Table<V>)
    requires Contains(t, index)
    ensures !Contains(r, index)
    ensures r.freeList == t.freeList + [index]
    ensures |r.slots| == |t.slots|
    ensures forall j :: 0 <= j < |t.slots| && j != index ==> r.slots[j] == t.slots[j]
    ensures Valid(t) ==> Valid(r)
  {
    assert Valid(t) ==> index != 0;
    Table(t.slots[index := None], t.freeList + [index])
  }

  /** Appends one empty slot and returns its index, the old size. */
  function GrowOnce<V>(t: Table<V>): (r: (nat, Table<V>))
    ensures r.0 == |t.slots| && !Contains(t, r.0)
    ensures |r.1.slots| == |t.slots| + 1 && r.1.slots[r.0] == None
    ensures r.1.slots[..|t.slots|] == t.slots && r.1.freeList == t.freeList
  {
    (|t.slots|, Table(t.slots + [None], t.freeList))
  }

  /** `m_getNextIndex`: pops the most recently freed index if there is one,
      otherwise grows the table by one empty slot. */
  function NextIndex<V>(t: Table<V>): (r: (nat, Table<V>))
    ensures |t.freeList| > 0 ==>
              && r.0 == t.freeList[|t.freeList| - 1]
              && r.1 == Table(t.slots, t.freeList[..|t.freeList| - 1])
    ensures |t.freeList| == 0 ==> r == GrowOnce(t)
    ensures Valid(t) ==> r.0 != 0 && !Contains(t, r.0) && r.0 < |r.1.slots|
  {
    if |t.freeList| > 0 then
      (t.freeList[|t.freeList| - 1], Table(t.slots, t.freeList[..|t.freeList| - 1]))
    else
      GrowOnce(t)
  }

  /** `emplace` as the source writes it: after `m_getNextIndex` has already
      popped the free list it pops it a second time. That second pop is only
      defined when the free list held at least two indices. */
  function EmplaceAsWritten<V>(t: Table<V>, v: V): (r: (nat, Table<V>))
    requires Valid(t) && |t.freeList| >= 2
    ensures r.0 == t.freeList[|t.freeList| - 1]
    ensures r.1.freeList == t.freeList[..|t.freeList| - 2]
    ensures Contains(r.1, r.0) && At(r.1, r.0) == v
  {
    var (index, t1) := NextIndex(t);
    (index, Table(t1.slots[index := Some(v)], t1.freeList[..|t1.freeList| - 1]))
  }

  /** `emplace` with the single pop that `m_getNextIndex` already performs. */
  function Emplace<V>(t: Table<V>, v: V): (r: (nat, Table<V>))
    requires Valid(t)
    ensures r.0 != 0 && !Contains(t, r.0)
    ensures Contains(r.1, r.0) && At(r.1, r.0) == v
    ensures |r.1.slots| >= |t.slots|
    ensures forall j :: 0 <= j < |t.slots| && j != r.0 ==> r.1.slots[j] == t.slots[j]
    ensures Valid(r.1)
  {
    var (index, t1) := NextIndex(t);
    assert |t.freeList| > 0 ==>
             forall k :: 0 <= k < |t1.freeList| ==> t1.freeList[k] != index;
    (index, Table(t1.slots[index := Some(v)], t1.freeList))
  }

  /** Every entry of `ItemsFrom(slots, from)` is an occupied index at or above
      `from` paired with its value, indices strictly increase, and no occupied
      index at or above `from` is skipped. */
  function ItemsFrom<V>(slots: seq<Option<V>>, from: nat): (r: seq<(nat, V)>)
    ensures forall k :: 0 <= k < |r| ==>
              from <= r[k].0 < |slots| && slots[r[k].0] == Some(r[k].1)
    ensures forall k, l :: 0 <= k < l < |r| ==> r[k].0 < r[l].0
    ensures forall i :: from <= i < |slots| && slots[i].Some? ==> (i, slots[i].value) in r
    decreases |slots| - from
  {
    if from >= |slots| then []
    else
      var rest := ItemsFrom(slots, from + 1);
      match slots[from]
      case None => rest
      case Some(v) => [(from, v)] + rest
  }

  /** `items()`: the occupied indices in increasing order, each with its value. */
  function Items<V>(t: Table<V>): (r: seq<(nat, V)>)
    ensures forall k :: 0 <= k < |r| ==> Contains(t, r[k].0) && At(t, r[k].0) == r[k].1
    ensures forall k, l :: 0 <= k < l < |r| ==> r[k].0 < r[l].0
    ensures forall i: nat :: Contains(t, i) ==> (i, At(t, i)) in r
  {
    ItemsFrom(t.slots, 0)
  }

  /** `clear()` drops every slot, the dummy included, and the free list. */
  function Clear<V>(t: Table<V>): (r: Table<V>)
    ensures forall i :: !Contains(r, i)
    ensures r.slots == [] && r.freeList == [] && !Valid(r)
  {
    Table([], [])
  }

  /** Erasing an entry and emplacing again hands back the same index (LIFO);
      re-storing the erased value restores the table exactly. */
  lemma EraseThenEmplaceReusesIndex<V>(t: Table<V>, index: nat, v: V)
    requires Valid(t) && Contains(t, index)
    ensures Emplace(Erase(t, index), v).0 == index
    ensures v == At(t, index) ==> Emplace(Erase(t, index), v).1 == t
  {
    var e := Erase(t, index);
    assert e.freeList[..|e.freeList| - 1] == t.freeList;
    if v == At(t, index) {
      assert e.slots[index := Some(v)] == t.slots;
    }
  }

  /** The defect of `EmplaceAsWritten`: the second pop discards a freed index
      that is then neither occupied nor on the free list, so the table's
      invariant is lost and that slot can never be handed out again. */
  lemma EmplaceAsWrittenLeaksIndex<V>(t: Table<V>, v: V)
    requires Valid(t) && |t.freeList| >= 2
    ensures var lost := t.freeList[|t.freeList| - 2];
            var r := EmplaceAsWritten(t, v).1;
            && lost < |r.slots| && !Contains(r, lost) && lost !in r.freeList
            && !Valid(r)
  {
    var n := |t.freeList|;
    var lost := t.freeList[n - 2];
    var r := EmplaceAsWritten(t, v).1;
    assert lost != t.freeList[n - 1];
    assert r.slots[lost] == None;
    assert forall k :: 0 <= k < |r.freeList| ==> r.freeList[k] == t.freeList[k] != lost;
    assert 0 < lost;
  }

  /** With the dummy gone after `clear()`, the next index handed out is 0. */
  lemma ClearThenNextIndexIsZero<V>(t: Table<V>)
    ensures NextIndex(Clear(t)).0 == 0
  {
  }
}

=== FILE: primitive.dfy ===
/** Frame primitives: the per-frame id table of a primitive handle, the
    copy-on-write strategy with its deferred three-step reset, and the swap
    strategy with one object per frame. Objects come from an allocator that is
    not part of this model, so a freshly allocated object is an input. */
module Primitives {
  import opened Wrappers

  /** An allocated primitive object: an allocation serial and the data an
      allocator's `write` last stored in it. */
  datatype Obj = Obj(serial: nat, data: seq<int>)

  datatype PrimitiveType = Cow | Swap

  /*** PrimitiveHandleBase: one id per frame in flight ***/

  datatype HandleIds = HandleIds(frameIds: seq<nat>)

  /** The constructor sizes the table to the engine's frame count, all 0. */
  function NewHandleIds(fifCount: nat): (h: HandleIds)
    ensures |h.frameIds| == fifCount
    ensures forall f :: 0 <= f < fifCount ==> GetIdForFrame(h, f) == 0
  {
    HandleIds(seq(fifCount, _ => 0))
  }

  function GetIdForFrame(h: HandleIds, frame: nat): nat
    requires frame < |h.frameIds|
  {
    h.frameIds[frame]
  }

  /** `setIDforFrame`: the source asserts the frame is in range. */
  function SetIdForFrame(h: HandleIds, frame: nat, id: nat): (r: HandleIds)
    requires frame < |h.frameIds|
    ensures |r.frameIds| == |h.frameIds|
    ensures GetIdForFrame(r, frame) == id
    ensures forall g :: 0 <= g < |h.frameIds| && g != frame ==> GetIdForFrame(r, g) == GetIdForFrame(h, g)
  {
    HandleIds(h.frameIds[frame := id])
  }

  /** Setting an id a frame already has changes nothing; setting twice keeps
      only the second. */
  lemma SetIdForFrameLastWins(h: HandleIds, frame: nat, a: nat, b: nat)
    requires frame < |h.frameIds|
    ensures SetIdForFrame(SetIdForFrame(h, frame, a), frame, b) == SetIdForFrame(h, frame, b)
    ensures SetIdForFrame(h, frame, GetIdForFrame(h, frame)) == h
  {
  }

  /*** COWPrimitive ***/

  /** How far a deferred `reset(args)` has been driven: issued only, object
      allocated with its initialisation under way, or initialisation complete. */
  datatype Stage = Issued | Initialising(obj: Obj) | Initialised(obj: Obj)

  /** A deferred update: `Replace` is `reset(args)`, whose third step publishes
      a new object; `Invalidate` is `reset()`, which only has the publishing
      step and publishes no object. */
  datatype Task = Replace(stage: Stage) | Invalidate

  /** The shared state: the published object, and the deferred updates not yet
      driven to completion, keyed by the ticket handed out when issued. */
  datatype CowState = CowState(primitive: Option<Obj>, pending: map<nat, Task>, nextTicket: nat)

  /** Whether the next step of `t` is its publishing step. */
  predicate Publishes(t: Task) {
    t.Invalidate? || t.stage.Initialised?
  }

  /** What `t`'s publishing step stores. */
  function PublishedValue(t: Task): Option<Obj>
    requires Publishes(t)
  {
    if t.Invalidate? then None else Some(t.stage.obj)
  }

  /** Tickets are issued in increasing order; every pending one is below the
      next ticket. */
  ghost predicate CowValid(c: CowState) {
    forall t :: t in c.pending ==> t < c.nextTicket
  }

  /** The constructor: no object is published. */
  function NewCow(): (c: CowState)
    ensures c.primitive.None? && c.pending == map[] && CowValid(c)
  {
    CowState(None, map[], 0)
  }

  /** `get`: the published object, whatever the frame. */
  function CowGet(c: CowState, frame: nat): Option<Obj> {
    c.primitive
  }

  /** Issuing an update (either form of `reset`) only hands out a deferred
      future: it records a new ticket and changes nothing anyone can see. */
  function Issue(c: CowState, task: Task): (r: (CowState, nat))
    requires CowValid(c)
    ensures var (c', ticket) := r;
            && ticket !in c.pending && c'.pending == c.pending[ticket := task]
            && c'.primitive == c.primitive && CowValid(c')
            && forall frame :: CowGet(c', frame) == CowGet(c, frame)
  {
    (CowState(c.primitive, c.pending[c.nextTicket := task], c.nextTicket + 1), c.nextTicket)
  }

  /** Drives the pending update `ticket` one step. The first step of a replace
      allocates (`newObj` is what the allocator returns), the second waits for
      its initialisation, the third publishes under the lock. Publishing
      replaces the shared object, removes the ticket and yields the stale
      object, released after the unlock; the earlier steps publish nothing. */
  function Drive(c: CowState, ticket: nat, newObj: Obj): (r: (CowState, Option<Obj>))
    requires ticket in c.pending
    ensures var (c', stale) := r;
            var task := c.pending[ticket];
            && c'.nextTicket == c.nextTicket
            && (Publishes(task) ==>
                  && c'.primitive == PublishedValue(task) && stale == c.primitive
                  && c'.pending == c.pending - {ticket})
            && (!Publishes(task) ==>
                  && c'.primitive == c.primitive && stale.None?
                  && ticket in c'.pending && c'.pending.Keys == c.pending.Keys
                  && (forall t :: t in c.pending && t != ticket ==> c'.pending[t] == c.pending[t])
                  && (task.stage.Issued? ==> c'.pending[ticket] == Replace(Initialising(newObj)))
                  && (task.stage.Initialising? ==> c'.pending[ticket] == Replace(Initialised(task.stage.obj))))
            && (CowValid(c) ==> CowValid(c'))
  {
    match c.pending[ticket]
    case Invalidate =>
      (CowState(None, c.pending - {ticket}, c.nextTicket), c.primitive)
    case Replace(Initialised(obj)) =>
      (CowState(Some(obj), c.pending - {ticket}, c.nextTicket), c.primitive)
    case Replace(Initialising(obj)) =>
      (c.(pending := c.pending[ticket := Replace(Initialised(obj))]), None)
    case Replace(Issued) =>
      (c.(pending := c.pending[ticket := Replace(Initialising(newObj))]), None)
  }

  /** One action on a copy-on-write primitive: issuing `reset(args)`, issuing
      `reset()`, or driving a pending ticket one step. */
  datatype CowEvent = IssueReplace | IssueInvalidate | Step(ticket: nat, newObj: Obj)

  /** Runs a schedule of actions; `None` when a step names a ticket that is not
      pending (a future that was already consumed). */
  function RunCow(c: CowState, events: seq<CowEvent>): (r: Option<CowState>)
    requires CowValid(c)
    ensures r.Some? ==> CowValid(r.value)
    decreases |events|
  {
    if events == [] then Some(c)
    else
      match RunCow(c, events[..|events| - 1])
      case None => None
      case Some(d) =>
        match events[|events| - 1]
        case IssueReplace => Some(Issue(d, Replace(Issued)).0)
        case IssueInvalidate => Some(Issue(d, Invalidate).0)
        case Step(t, newObj) => if t in d.pending then Some(Drive(d, t, newObj).0) else None
  }

  /** Whether event `k` of the schedule is a publishing step. */
  ghost predicate PublishesAt(c: CowState, events: seq<CowEvent>, k: nat)
    requires CowValid(c) && k < |events|
  {
    && RunCow(c, events[..k]).Some?
    && events[k].Step?
    && events[k].ticket in RunCow(c, events[..k]).value.pending
    && Publishes(RunCow(c, events[..k]).value.pending[events[k].ticket])
  }

  /** Events after the last publishing step never change what `get` sees. */
  lemma {:induction false} NoPublishKeepsVisible(c: CowState, events: seq<CowEvent>, k: nat)
    requires CowValid(c) && k <= |events| && RunCow(c, events).Some?
    requires forall j :: k <= j < |events| ==> !PublishesAt(c, events, j)
    ensures RunCow(c, events[..k]).Some?
    ensures RunCow(c, events).value.primitive == RunCow(c, events[..k]).value.primitive
    decreases |events|
  {
    if |events| > k {
      var n := |events| - 1;
      var prefix := events[..n];
      assert prefix[..k] == events[..k];
      forall j | k <= j < |prefix|
        ensures !PublishesAt(c, prefix, j)
      {
        assert prefix[..j] == events[..j];
        assert !PublishesAt(c, events, j);
      }
      NoPublishKeepsVisible(c, prefix, k);
      assert !PublishesAt(c, events, n);
      assert events[..n] == prefix;
    } else {
      assert events[..k] == events;
    }
  }

  /** Last publish executed wins: after any schedule, `get` returns what the
      last publishing step stored, however the updates were issued. */
  lemma LastPublishWins(c: CowState, events: seq<CowEvent>, k: nat)
    requires CowValid(c) && k < |events| && RunCow(c, events).Some?
    requires PublishesAt(c, events, k)
    requires forall j :: k < j < |events| ==> !PublishesAt(c, events, j)
    ensures RunCow(c, events).value.primitive
         == PublishedValue(RunCow(c, events[..k]).value.pending[events[k].ticket])
  {
    NoPublishKeepsVisible(c, events, k + 1);
    assert events[..k + 1][..k] == events[..k];
  }

  /** Two replacements issued in order A then B, with B driven to completion
      first: the object of A, published last, is the one every frame sees,
      although B was issued last. */
  lemma CompletionOrderNotIssueOrder(a: Obj, b: Obj)
    requires a != b
    ensures var events := [IssueReplace, IssueReplace,
                           Step(1, b), Step(1, b), Step(1, b),
                           Step(0, a), Step(0, a), Step(0, a)];
            && RunCow(NewCow(), events).Some?
            && forall frame :: CowGet(RunCow(NewCow(), events).value, frame) == Some(a)
  {
    var c0 := NewCow();
    var p5 := [IssueReplace, IssueReplace, Step(1, b), Step(1, b), Step(1, b)];
    var c5 := BPublishedFirst(a, b);
    var c6 := RunCowSnoc(c0, p5, Step(0, a));
    var p6 := p5 + [Step(0, a)];
    assert c6.pending[0] == Replace(Initialising(a));
    var c7 := RunCowSnoc(c0, p6, Step(0, a));
    var p7 := p6 + [Step(0, a)];
    assert c7.pending[0] == Replace(Initialised(a));
    var c8 := RunCowSnoc(c0, p7, Step(0, a));
    var p8 := p7 + [Step(0, a)];
    assert c8.primitive == Some(a);
    assert p8 == [IssueReplace, IssueReplace,
                  Step(1, b), Step(1, b), Step(1, b),
                  Step(0, a), Step(0, a), Step(0, a)];
  }

  /** The first part of that schedule: both replacements issued, B driven to
      completion and published, A still only issued. */
  lemma BPublishedFirst(a: Obj, b: Obj) returns (c5: CowState)
    ensures RunCow(NewCow(), [IssueReplace, IssueReplace, Step(1, b), Step(1, b), Step(1, b)]) == Some(c5)
    ensures c5.primitive == Some(b) && 0 in c5.pending && c5.pending[0] == Replace(Issued)
  {
    var c0 := NewCow();
    var p0: seq<CowEvent> := [];
    var c1 := RunCowSnoc(c0, p0, IssueReplace);
    var p1 := p0 + [IssueReplace];
    var c2 := RunCowSnoc(c0, p1, IssueReplace);
    var p2 := p1 + [IssueReplace];
    assert c2.pending[0] == Replace(Issued) && c2.pending[1] == Replace(Issued);
    var c3 := RunCowSnoc(c0, p2, Step(1, b));
    var p3 := p2 + [Step(1, b)];
    assert c3.pending[1] == Replace(Initialising(b));
    var c4 := RunCowSnoc(c0, p3, Step(1, b));
    var p4 := p3 + [Step(1, b)];
    assert c4.pending[1] == Replace(Initialised(b));
    c5 := RunCowSnoc(c0, p4, Step(1, b));
    var p5 := p4 + [Step(1, b)];
    assert p5 == [IssueReplace, IssueReplace, Step(1, b), Step(1, b), Step(1, b)];
  }

  /** Running one more event after a schedule that succeeded. */
  lemma RunCowSnoc(c: CowState, events: seq<CowEvent>, e: CowEvent) returns (d': CowState)
    requires CowValid(c) && RunCow(c, events).Some?
    requires e.Step? ==> e.ticket in RunCow(c, events).value.pending
    ensures var d := RunCow(c, events).value;
            && RunCow(c, events + [e]) == Some(d')
            && d' == match e
                     case IssueReplace => Issue(d, Replace(Issued)).0
                     case IssueInvalidate => Issue(d, Invalidate).0
                     case Step(t, newObj) => Drive(d, t, newObj).0
  {
    assert (events + [e])[..|events|] == events;
    var d := RunCow(c, events).value;
    d' := match e
          case IssueReplace => Issue(d, Replace(Issued)).0
          case IssueInvalidate => Issue(d, Invalidate).0
          case Step(t, newObj) => Drive(d, t, newObj).0;
  }

  /*** SwapPrimitive ***/

  datatype SwapError = OutOfRange

  /** One slot per frame in flight; `kind` is what `type()` reports. */
  datatype SwapState = SwapState(kind: PrimitiveType, prims: seq<Option<Obj>>)

  /** The constructor as written: one empty slot per frame, but the type is
      reported as copy-on-write. */
  function NewSwap(fifCount: nat): (s: SwapState)
    ensures |s.prims| == fifCount && forall f :: 0 <= f < fifCount ==> s.prims[f].None?
    ensures s.kind == Cow
  {
    SwapState(Cow, seq(fifCount, _ => None))
  }

  /** The constructor as intended: the same slots, reported as swap. */
  function NewSwapIntended(fifCount: nat): (s: SwapState)
    ensures |s.prims| == fifCount && forall f :: 0 <= f < fifCount ==> s.prims[f].None?
    ensures s.kind == Swap
  {
    SwapState(Swap, seq(fifCount, _ => None))
  }

  /** The two constructors differ exactly in the reported type. */
  lemma SwapReportsCow(fifCount: nat)
    ensures NewSwap(fifCount).kind != NewSwapIntended(fifCount).kind
    ensures NewSwap(fifCount).prims == NewSwapIntended(fifCount).prims
  {
  }

  /** `get(frame)`: the frame's slot; `at` fails beyond the frame count. */
  function SwapGet(s: SwapState, frame: nat): (r: Result<Option<Obj>, SwapError>)
    ensures r.Failure? <==> frame >= |s.prims|
  {
    if frame < |s.prims| then Success(s.prims[frame]) else Failure(OutOfRange)
  }

  /** `reset(frame)`: a freshly allocated object replaces that frame's slot. */
  function SwapReset(s: SwapState, frame: nat, newObj: Obj): (r: Result<SwapState, SwapError>)
    ensures r.Failure? <==> frame >= |s.prims|
    ensures r.Success? ==> r.value.kind == s.kind && |r.value.prims| == |s.prims|
  {
    if frame < |s.prims| then Success(s.(prims := s.prims[frame := Some(newObj)]))
    else Failure(OutOfRange)
  }

  /** `resetAll`: every slot gets its own freshly allocated object. Each slot's
      object comes from its own `allocate()` call, so no two share a serial. */
  function SwapResetAll(s: SwapState, newObj: seq<Obj>): (r: SwapState)
    requires |newObj| == |s.prims|
    requires forall i, j :: 0 <= i < j < |newObj| ==> newObj[i].serial != newObj[j].serial
    ensures r.kind == s.kind && |r.prims| == |s.prims|
    ensures forall f :: 0 <= f < |s.prims| ==> SwapGet(r, f) == Success(Some(newObj[f]))
    ensures forall f, h :: 0 <= f < h < |r.prims| ==>
              r.prims[f].Some? && r.prims[h].Some? && r.prims[f].value.serial != r.prims[h].value.serial
  {
    s.(prims := seq(|newObj|, i requires 0 <= i < |newObj| => Some(newObj[i])))
  }

  /** `write(frame)`: the allocator stores `data` in that frame's object. The
      slot must hold an object (the source dereferences it); `at` fails beyond
      the frame count. */
  function SwapWrite(s: SwapState, frame: nat, data: seq<int>): (r: Result<SwapState, SwapError>)
    requires frame < |s.prims| ==> s.prims[frame].Some?
    ensures r.Failure? <==> frame >= |s.prims|
    ensures r.Success? ==> r.value.kind == s.kind && |r.value.prims| == |s.prims|
  {
    if frame < |s.prims| then
      Success(s.(prims := s.prims[frame := Some(s.prims[frame].value.(data := data))]))
    else Failure(OutOfRange)
  }

  /** `reset(frame)` touches only that frame: `get` on it returns the new
      object, on every other frame what it returned before. */
  lemma SwapResetTouchesOnlyItsFrame(s: SwapState, frame: nat, newObj: Obj, other: nat)
    requires frame < |s.prims|
    ensures SwapGet(SwapReset(s, frame, newObj).value, frame) == Success(Some(newObj))
    ensures other != frame ==> SwapGet(SwapReset(s, frame, newObj).value, other) == SwapGet(s, other)
  {
  }

  /** `write(frame)` keeps the frame's object (same serial) with the new data,
      and leaves every other frame's object alone. */
  lemma SwapWriteTouchesOnlyItsFrame(s: SwapState, frame: nat, data: seq<int>, other: nat)
    requires frame < |s.prims| && s.prims[frame].Some?
    ensures var r := SwapGet(SwapWrite(s, frame, data).value, frame);
            r.Success? && r.value.Some?
            && r.value.value.serial == s.prims[frame].value.serial && r.value.value.data == data
    ensures other != frame ==> SwapGet(SwapWrite(s, frame, data).value, other) == SwapGet(s, other)
  {
  }
}

=== FILE: queue.dfy ===
/** A queue handle with an optional mutex. The mutex is modelled as a flag that
    is absent, free or held; blocking is the `Blocked` outcome of `Acquire`. */
module QueueLock {
  import opened Wrappers

  /** Identity of a native queue: its family index and its index in the family. */
  datatype QueueId = QueueId(family: nat, index: nat)

  datatype Lock = NoLock | Free | Held

  datatype Queue = Queue(id: QueueId, lock: Lock) {
    predicate HasLock() {
      lock != NoLock
    }
  }

  /** The scope-bound access object; `holdsLock` is whether it owns the mutex. */
  datatype HandedQueue = HandedQueue(id: QueueId, holdsLock: bool)

  datatype AcquireOutcome = Granted(queue: Queue, handed: HandedQueue) | Blocked

  /** The constructor: a lock exists exactly when `sync` is requested. */
  function New(id: QueueId, sync: bool): (q: Queue)
    ensures q.id == id
    ensures q.HasLock() <==> sync
    ensures q.lock != Held
  {
    Queue(id, if sync then Free else NoLock)
  }

  /** Creates the mutex if there is none; an existing one is left as it is. */
  function IntroduceLock(q: Queue): (r: Queue)
    ensures r.HasLock() && r.id == q.id
    ensures q.HasLock() ==> r == q
  {
    if q.lock == NoLock then q.(lock := Free) else q
  }

  /** Destroys the mutex, whatever its state. */
  function GiveUpLock(q: Queue): (r: Queue)
    ensures !r.HasLock() && r.id == q.id
  {
    q.(lock := NoLock)
  }

  /** Blocking access: without a lock the queue is handed out unlocked and
      unchanged; with a free lock the lock is taken; a held lock blocks. */
  function Acquire(q: Queue): (r: AcquireOutcome)
    ensures r.Blocked? <==> q.lock == Held
    ensures r.Granted? ==> r.handed.id == q.id && r.queue.id == q.id
    ensures r.Granted? ==> (r.handed.holdsLock <==> q.HasLock())
    ensures r.Granted? && !q.HasLock() ==> r.queue == q
    ensures r.Granted? && q.HasLock() ==> r.queue.lock == Held
  {
    match q.lock
    case NoLock => Granted(q, HandedQueue(q.id, false))
    case Free => Granted(q.(lock := Held), HandedQueue(q.id, true))
    case Held => Blocked
  }

  /** Non-blocking access: succeeds exactly when `Acquire` would not block,
      and on failure changes nothing. */
  function TryAcquire(q: Queue): (r: Option<(Queue, HandedQueue)>)
    ensures r.None? <==> q.lock == Held
    ensures r.Some? ==> r.value.1.id == q.id && (r.value.1.holdsLock <==> q.HasLock())
    ensures r.Some? && !q.HasLock() ==> r.value.0 == q
    ensures r.Some? && q.HasLock() ==> r.value.0.lock == Held
  {
    if q.lock == Held then None
    else if q.lock == Free then Some((q.(lock := Held), HandedQueue(q.id, true)))
    else Some((q, HandedQueue(q.id, false)))
  }

  /** The handed queue's scope ends: a lock it holds is released. */
  function Release(q: Queue, h: HandedQueue): (r: Queue)
    requires h.holdsLock ==> q.lock == Held
    ensures r.id == q.id
    ensures h.holdsLock ==> r.lock == Free
    ensures !h.holdsLock ==> r == q
  {
    if h.holdsLock then q.(lock := Free) else q
  }

  /** Acquiring and leaving the scope again restores the queue it started from. */
  lemma AcquireReleaseRoundTrip(q: Queue)
    requires q.lock != Held
    ensures Acquire(q).Granted?
    ensures Release(Acquire(q).queue, Acquire(q).handed) == q
  {
  }

  /** Where the blocking call would not block, the non-blocking one agrees. */
  lemma TryAcquireAgreesWithAcquire(q: Queue)
    ensures TryAcquire(q).Some? <==> Acquire(q).Granted?
    ensures TryAcquire(q).Some? ==>
              TryAcquire(q).value == (Acquire(q).queue, Acquire(q).handed)
  {
  }

  /** Introducing the lock twice is the same as introducing it once. */
  lemma IntroduceLockIdempotent(q: Queue)
    ensures IntroduceLock(IntroduceLock(q)) == IntroduceLock(q)
  {
  }
}

=== FILE: registry.dfy ===
/** The queue registry of the context: which native queues are handed out, to
    how many engines, and the allocation policy that picks a queue for a
    capability request. Calls are externally serialised, so every operation is
    a sequential transition on an immutable registry value. */
module QueueRegistry {
  import opened Wrappers
  import opened QueueLock

  /** `std::numeric_limits<unsigned>::max()`, the sentinel of the least-crowded fold. */
  const UINT_MAX: nat := 0xFFFF_FFFF

  /** What an engine needs from its queue. */
  datatype QueueCapsInfo = QueueCapsInfo(present: bool, graphics: bool, compute: bool, transfer: bool)

  /** A physical queue family: its index, its capabilities, and how many queues
      of it were requested when the device was created. */
  datatype QueueFamily = QueueFamily(
    index: nat,
    present: bool,
    graphics: bool,
    compute: bool,
    transfer: bool,
    requestedCount: nat)

  /** A registry entry: the queue object (by identity) and its reference count. */
  datatype Entry = Entry(queue: QueueId, refCount: nat)

  /** family index -> queue index -> entry, plus the storage that owns the
      queue objects, keyed by queue identity. */
  datatype Registry = Registry(queueMap: map<nat, map<nat, Entry>>, storage: map<QueueId, Queue>)

  datatype RegistryError =
    | NoViableCandidate   // the runtime_error of `allocateQueue`
    | OutOfRange          // a `std::unordered_map::at` lookup of a missing key

  predicate Allocated(reg: Registry, id: QueueId) {
    id.family in reg.queueMap && id.index in reg.queueMap[id.family]
  }

  function RefCount(reg: Registry, id: QueueId): nat
    requires Allocated(reg, id)
  {
    reg.queueMap[id.family][id.index].refCount
  }

  /** The entry at `id` refers to the stored queue with that identity, its lock
      is not held between calls, and a queue shared by two or more engines has
      a lock. */
  ghost predicate EntryOk(reg: Registry, id: QueueId)
    requires Allocated(reg, id)
  {
    && reg.queueMap[id.family][id.index].queue == id
    && id in reg.storage
    && reg.storage[id].id == id
    && reg.storage[id].lock != Held
    && (RefCount(reg, id) >= 2 ==> reg.storage[id].HasLock())
  }

  /** The registry invariant the source keeps: every entry is well formed and
      no stored queue is orphaned. */
  ghost predicate Valid(reg: Registry) {
    && (forall id :: Allocated(reg, id) ==> EntryOk(reg, id))
    && (forall id :: id in reg.storage ==> Allocated(reg, id))
  }

  /** Every family of the device has an entry, so per-family lookups succeed. */
  ghost predicate KnowsFamilies(reg: Registry, families: seq<QueueFamily>) {
    forall k :: 0 <= k < |families| ==> families[k].index in reg.queueMap
  }

  /** The constructor pre-initialises one empty entry per physical family. */
  function Init(families: seq<QueueFamily>): (reg: Registry)
    ensures Valid(reg) && KnowsFamilies(reg, families)
    ensures forall f :: f in reg.queueMap ==> reg.queueMap[f] == map[]
    ensures forall f :: f in reg.queueMap <==> exists k :: 0 <= k < |families| && families[k].index == f
    ensures reg.storage == map[]
  {
    var indices := set k | 0 <= k < |families| :: families[k].index;
    Registry(map f | f in indices :: map[], map[])
  }

  /*** Family matching ***/

  /** `exactMatch`: graphics, compute and transfer equal the request; the
      `present` flag is not consulted. */
  predicate ExactMatch(req: QueueCapsInfo, fam: QueueFamily) {
    && req.graphics == fam.graphics
    && req.compute == fam.compute
    && req.transfer == fam.transfer
  }

  /** `viableMatch` as written: graphics is a superset test, but compute and
      transfer must be the NEGATION of the requested flag. */
  predicate ViableMatch(req: QueueCapsInfo, fam: QueueFamily) {
    && (!req.graphics || fam.graphics)
    && (!req.compute == fam.compute)
    && (!req.transfer == fam.transfer)
  }

  /** The evidently intended exact match, which also honours `present`. */
  predicate ExactMatchPresent(req: QueueCapsInfo, fam: QueueFamily) {
    ExactMatch(req, fam) && (req.present ==> fam.present)
  }

  /** The evidently intended viable match: the family offers every requested capability. */
  predicate SupersetMatch(req: QueueCapsInfo, fam: QueueFamily) {
    && (req.present ==> fam.present)
    && (req.graphics ==> fam.graphics)
    && (req.compute ==> fam.compute)
    && (req.transfer ==> fam.transfer)
  }

  datatype MatchKind = Exact | Viable | ExactWithPresent | Superset

  predicate Matches(kind: MatchKind, req: QueueCapsInfo, fam: QueueFamily) {
    match kind
    case Exact => ExactMatch(req, fam)
    case Viable => ViableMatch(req, fam)
    case ExactWithPresent => ExactMatchPresent(req, fam)
    case Superset => SupersetMatch(req, fam)
  }

  /** A family a pass of kind `kind` asks for a queue: it matches and has
      queues requested (a family with zero requested queues is skipped). */
  predicate Eligible(kind: MatchKind, req: QueueCapsInfo, fam: QueueFamily) {
    Matches(kind, req, fam) && fam.requestedCount > 0
  }

  /** Every requested queue of the family is already handed out. */
  predicate Full(reg: Registry, fam: QueueFamily)
    requires fam.index in reg.queueMap
  {
    forall j :: 0 <= j < fam.requestedCount ==> j in reg.queueMap[fam.index]
  }

  /*** Passes over the families ***/

  /** The lowest index in [i, count) with no entry in `m`. */
  function FirstFree(m: map<nat, Entry>, i: nat, count: nat): (r: Option<nat>)
    ensures r.Some? ==> i <= r.value < count && r.value !in m
    ensures r.Some? ==> forall j :: i <= j < r.value ==> j in m
    ensures r.None? ==> forall j :: i <= j < count ==> j in m
    decreases count - i
  {
    if i >= count then None
    else if i !in m then Some(i)
    else FirstFree(m, i + 1, count)
  }

  datatype PassOutcome =
    | Found(family: nat, index: nat)
    | Exhausted(candidates: seq<QueueFamily>)

  /** One pass of `tryAllocateNew` over the families of kind `kind`, from
      position `k` on, in enumeration order: the first eligible family with a
      free index yields its lowest free index; every eligible family found full
      is appended to the candidates. */
  function Pass(reg: Registry, families: seq<QueueFamily>, req: QueueCapsInfo,
                kind: MatchKind, k: nat, acc: seq<QueueFamily>): (r: PassOutcome)
    requires KnowsFamilies(reg, families) && k <= |families|
    ensures r.Found? ==>
              exists p :: k <= p < |families| && FoundAt(reg, families, req, kind, k, p, r.family, r.index)
    ensures r.Exhausted? ==>
              && acc <= r.candidates
              && (forall p :: k <= p < |families| && Eligible(kind, req, families[p]) ==>
                    Full(reg, families[p]) && families[p] in r.candidates)
              && (forall c :: c in r.candidates ==>
                    c in acc || (c in families[k..] && Eligible(kind, req, c) && Full(reg, c)))
    decreases |families| - k
  {
    if k == |families| then Exhausted(acc)
    else
      var fam := families[k];
      if !Eligible(kind, req, fam) then
        var r := Pass(reg, families, req, kind, k + 1, acc);
        assert r.Found? ==> exists p :: k <= p < |families| && FoundAt(reg, families, req, kind, k, p, r.family, r.index) by {
          if r.Found? {
            var p :| k + 1 <= p < |families| && FoundAt(reg, families, req, kind, k + 1, p, r.family, r.index);
            assert FoundAt(reg, families, req, kind, k, p, r.family, r.index);
          }
        }
        r
      else match FirstFree(reg.queueMap[fam.index], 0, fam.requestedCount)
        case Some(i) =>
          assert FoundAt(reg, families, req, kind, k, k, fam.index, i);
          Found(fam.index, i)
        case None =>
          var r := Pass(reg, families, req, kind, k + 1, acc + [fam]);
          assert r.Found? ==> exists p :: k <= p < |families| && FoundAt(reg, families, req, kind, k, p, r.family, r.index) by {
            if r.Found? {
              var p :| k + 1 <= p < |families| && FoundAt(reg, families, req, kind, k + 1, p, r.family, r.index);
              assert FoundAt(reg, families, req, kind, k, p, r.family, r.index);
            }
          }
          assert r.Exhausted? ==> fam in r.candidates by {
            if r.Exhausted? {
              assert (acc + [fam])[|acc|] == fam;
            }
          }
          r
  }

  /** Family position `p` is where a pass starting at `k` stops: it is eligible,
      `index` is its lowest unallocated index, and every eligible family before
      it (from `k`) is full. */
  ghost predicate FoundAt(reg: Registry, families: seq<QueueFamily>, req: QueueCapsInfo,
                          kind: MatchKind, k: nat, p: nat, family: nat, index: nat)
    requires KnowsFamilies(reg, families) && p < |families|
  {
    && families[p].index == family
    && Eligible(kind, req, families[p])
    && index < families[p].requestedCount
    && index !in reg.queueMap[family]
    && (forall j :: 0 <= j < index ==> j in reg.queueMap[family])
    && (forall q :: k <= q < p && Eligible(kind, req, families[q]) ==> Full(reg, families[q]))
  }

  /*** The least-crowded fold ***/

  /** Every index below the family's requested count has an entry. */
  ghost predicate FullFamilies(reg: Registry, cands: seq<QueueFamily>) {
    forall p :: 0 <= p < |cands| ==>
      cands[p].index in reg.queueMap && Full(reg, cands[p])
  }

  function CountAt(reg: Registry, fam: QueueFamily, j: nat): nat
    requires fam.index in reg.queueMap && j in reg.queueMap[fam.index]
  {
    reg.queueMap[fam.index][j].refCount
  }

  /** The inner `std::accumulate` over one family's queue indices: the pair
      (index, count) is replaced only by a STRICTLY smaller count, so the result
      is the first index of minimal count, or the seed if no count beats it. */
  function LeastInFamily(m: map<nat, Entry>, count: nat, i: nat, acc: (nat, nat)): (r: (nat, nat))
    requires forall j :: 0 <= j < count ==> j in m
    ensures r.1 <= acc.1
    ensures forall j :: i <= j < count ==> r.1 <= m[j].refCount
    ensures r == acc || (&& i <= r.0 < count && r.1 == m[r.0].refCount && r.1 < acc.1
                         && forall j :: i <= j < r.0 ==> r.1 < m[j].refCount)
    decreases count - i
  {
    if i >= count then acc
    else LeastInFamily(m, count, i + 1, if m[i].refCount < acc.1 then (i, m[i].refCount) else acc)
  }

  /** The outer `std::accumulate` over the candidate families, in the order the
      passes collected them, again replacing the accumulator only on a strictly
      smaller count. */
  function LeastCrowdedFrom(reg: Registry, cands: seq<QueueFamily>, k: nat,
                            acc: ((nat, nat), nat)): (r: ((nat, nat), nat))
    requires FullFamilies(reg, cands) && k <= |cands| && acc.1 <= UINT_MAX
    ensures r.1 <= acc.1
    ensures forall p, j :: k <= p < |cands| && 0 <= j < cands[p].requestedCount ==>
              r.1 <= CountAt(reg, cands[p], j)
    ensures r == acc || exists p :: k <= p < |cands| && ChosenAt(reg, cands, k, p, r, acc.1)
    decreases |cands| - k
  {
    if k == |cands| then acc
    else
      var fam := cands[k];
      var inFamily := LeastInFamily(reg.queueMap[fam.index], fam.requestedCount, 0, (0, UINT_MAX));
      var acc' := if inFamily.1 < acc.1 then ((fam.index, inFamily.0), inFamily.1) else acc;
      var next := k + 1;
      var r := LeastCrowdedFrom(reg, cands, next, acc');
      assert acc' != acc ==> ChosenAt(reg, cands, k, k, acc', acc.1);
      ChosenStep(reg, cands, k, next, acc, acc', r);
      r
  }

  /** One step of the fold: a choice made at or after candidate `k + 1`
      against the updated accumulator is also a choice from `k` against the
      old one, because candidate `k`'s counts are all at least the updated
      accumulator's. */
  lemma ChosenStep(reg: Registry, cands: seq<QueueFamily>, k: nat, next: nat,
                   acc: ((nat, nat), nat), acc': ((nat, nat), nat), r: ((nat, nat), nat))
    requires FullFamilies(reg, cands) && k < |cands| && next == k + 1
    requires forall j :: 0 <= j < cands[k].requestedCount ==> acc'.1 <= CountAt(reg, cands[k], j)
    requires acc'.1 <= acc.1
    requires acc' == acc || ChosenAt(reg, cands, k, k, acc', acc.1)
    requires r == acc' || exists p :: next <= p < |cands| && ChosenAt(reg, cands, next, p, r, acc'.1)
    ensures r == acc || exists p :: k <= p < |cands| && ChosenAt(reg, cands, k, p, r, acc.1)
  {
    if r != acc' {
      var p :| next <= p < |cands| && ChosenAt(reg, cands, next, p, r, acc'.1);
      assert ChosenAt(reg, cands, k, p, r, acc.1);
    }
  }

  /** Candidate position `p` (from `k`) holds the chosen queue `r`: the queue is
      allocated, its count beats the seed `seed`, every queue of an earlier
      candidate has a strictly larger count, and so has every lower index of
      the same family (ties go to the earlier family, then the lower index). */
  ghost predicate ChosenAt(reg: Registry, cands: seq<QueueFamily>, k: nat, p: nat,
                           r: ((nat, nat), nat), seed: nat)
    requires FullFamilies(reg, cands) && p < |cands|
  {
    && r.0.0 == cands[p].index
    && r.0.1 < cands[p].requestedCount
    && r.1 == CountAt(reg, cands[p], r.0.1)
    && r.1 < seed
    && (forall q, j :: k <= q < p && 0 <= j < cands[q].requestedCount ==> r.1 < CountAt(reg, cands[q], j))
    && (forall j :: 0 <= j < r.0.1 ==> r.1 < CountAt(reg, cands[p], j))
  }

  /** The fold with the seed of the source: family 0, queue 0, count UINT_MAX. */
  function LeastCrowded(reg: Registry, cands: seq<QueueFamily>): ((nat, nat), nat)
    requires FullFamilies(reg, cands)
  {
    LeastCrowdedFrom(reg, cands, 0, ((0, 0), UINT_MAX))
  }

  /*** Allocation and release ***/

  /** Writes the entry for `id` with count `count` and stored queue `q`;
      every other entry and stored queue is left as it was. */
  function SetEntry(reg: Registry, id: QueueId, count: nat, q: Queue): (r: Registry)
    requires id.family in reg.queueMap
    ensures Allocated(r, id) && RefCount(r, id) == count
    ensures r.queueMap[id.family][id.index].queue == id
    ensures id in r.storage && r.storage[id] == q
    ensures r.queueMap.Keys == reg.queueMap.Keys
    ensures forall other :: other != id ==>
              && (Allocated(r, other) <==> Allocated(reg, other))
              && (Allocated(reg, other) ==>
                    r.queueMap[other.family][other.index] == reg.queueMap[other.family][other.index])
              && (other in r.storage <==> other in reg.storage)
              && (other in reg.storage ==> r.storage[other] == reg.storage[other])
  {
    var m: map<nat, Entry> := reg.queueMap[id.family][id.index := Entry(id, count)];
    Registry(reg.queueMap[id.family := m], reg.storage[id := q])
  }

  lemma SetEntryKeepsValid(reg: Registry, id: QueueId, count: nat, q: Queue)
    requires Valid(reg) && id.family in reg.queueMap
    requires q.id == id && q.lock != Held && (count >= 2 ==> q.HasLock())
    ensures Valid(SetEntry(reg, id, count, q))
  {
    var r := SetEntry(reg, id, count, q);
    forall other | Allocated(r, other)
      ensures EntryOk(r, other)
    {
      if other != id {
        assert EntryOk(reg, other);
      }
    }
  }

  /** Removes the entry for `id` and its stored queue; everything else stays. */
  function EraseEntry(reg: Registry, id: QueueId): (r: Registry)
    requires Allocated(reg, id)
    ensures !Allocated(r, id) && id !in r.storage
    ensures r.queueMap.Keys == reg.queueMap.Keys
    ensures forall other :: other != id ==>
              && (Allocated(r, other) <==> Allocated(reg, other))
              && (Allocated(reg, other) ==>
                    r.queueMap[other.family][other.index] == reg.queueMap[other.family][other.index])
              && (other in r.storage <==> other in reg.storage)
              && (other in reg.storage ==> r.storage[other] == reg.storage[other])
  {
    var m: map<nat, Entry> := reg.queueMap[id.family] - {id.index};
    Registry(reg.queueMap[id.family := m], reg.storage - {id})
  }

  lemma EraseEntryKeepsValid(reg: Registry, id: QueueId)
    requires Valid(reg) && Allocated(reg, id)
    ensures Valid(EraseEntry(reg, id))
  {
    var r := EraseEntry(reg, id);
    forall other | Allocated(r, other)
      ensures EntryOk(r, other)
    {
      assert EntryOk(reg, other);
    }
  }

  /** `m_allocateQueue`: a queue not yet in the map enters with count 1 and no
      lock; an existing one gets its count incremented, and the lock is
      introduced exactly when the count goes from 1 to 2. Nothing else changes. */
  function AllocateAt(reg: Registry, family: nat, index: nat): (r: (Registry, QueueId))
    requires Valid(reg) && family in reg.queueMap
    ensures r.1 == QueueId(family, index) && Allocated(r.0, r.1) && Valid(r.0)
    ensures !Allocated(reg, r.1) ==>
              RefCount(r.0, r.1) == 1 && !r.0.storage[r.1].HasLock()
    ensures Allocated(reg, r.1) ==>
              && RefCount(r.0, r.1) == RefCount(reg, r.1) + 1
              && (RefCount(reg, r.1) == 1 ==> r.0.storage[r.1].HasLock())
              && (RefCount(reg, r.1) != 1 ==> r.0.storage[r.1] == reg.storage[r.1])
    ensures forall id :: id != r.1 ==>
              && (Allocated(r.0, id) <==> Allocated(reg, id))
              && (Allocated(reg, id) ==> RefCount(r.0, id) == RefCount(reg, id))
              && (id in r.0.storage <==> id in reg.storage)
              && (id in reg.storage ==> r.0.storage[id] == reg.storage[id])
    ensures r.0.queueMap.Keys == reg.queueMap.Keys
  {
    var id := QueueId(family, index);
    if Allocated(reg, id) then
      assert EntryOk(reg, id);
      var e := reg.queueMap[family][index];
      var q := reg.storage[e.queue];
      var q' := if e.refCount == 1 then IntroduceLock(q) else q;
      SetEntryKeepsValid(reg, id, e.refCount + 1, q');
      (SetEntry(reg, id, e.refCount + 1, q'), id)
    else
      var q := QueueLock.New(id, false);
      SetEntryKeepsValid(reg, id, 1, q);
      (SetEntry(reg, id, 1, q), id)
  }

  /** No reference count has reached the fold's sentinel UINT_MAX. */
  ghost predicate CountsBelowMax(reg: Registry) {
    forall id :: Allocated(reg, id) ==> RefCount(reg, id) < UINT_MAX
  }

  /** The queue `id` belongs to `fam`, a family one of the two passes asks for. */
  ghost predicate Serves(fam: QueueFamily, id: QueueId, req: QueueCapsInfo, first: MatchKind, second: MatchKind) {
    && fam.index == id.family
    && id.index < fam.requestedCount
    && (Eligible(first, req, fam) || Eligible(second, req, fam))
  }

  /** `allocateQueue` with the two match kinds of its passes: first `first`,
      then `second`, then the least-crowded candidate, else an error. */
  function AllocateWith(reg: Registry, families: seq<QueueFamily>, req: QueueCapsInfo,
                        first: MatchKind, second: MatchKind): (r: Result<(Registry, QueueId), RegistryError>)
    requires Valid(reg) && KnowsFamilies(reg, families)
    ensures r.Success? ==> Valid(r.value.0) && Allocated(r.value.0, r.value.1)
    ensures r.Success? ==>
              RefCount(r.value.0, r.value.1) ==
                (if Allocated(reg, r.value.1) then RefCount(reg, r.value.1) + 1 else 1)
    ensures r.Success? ==> forall id :: id != r.value.1 ==>
              && (Allocated(r.value.0, id) <==> Allocated(reg, id))
              && (Allocated(reg, id) ==> RefCount(r.value.0, id) == RefCount(reg, id))
    ensures r.Success? && CountsBelowMax(reg) ==>
              exists p :: 0 <= p < |families| && Serves(families[p], r.value.1, req, first, second)
    ensures CountsBelowMax(reg) && r.Failure? ==> r.error == NoViableCandidate
    ensures r.Failure? && r.error == NoViableCandidate <==>
              forall p :: 0 <= p < |families| ==>
                !Eligible(first, req, families[p]) && !Eligible(second, req, families[p])
  {
    match Pass(reg, families, req, first, 0, [])
    case Found(f, i) =>
      FoundServes(reg, families, req, first, [], first, second, f, i);
      Success(AllocateAt(reg, f, i))
    case Exhausted(c1) =>
      match Pass(reg, families, req, second, 0, c1)
      case Found(f, i) =>
        FoundServes(reg, families, req, second, c1, first, second, f, i);
        Success(AllocateAt(reg, f, i))
      case Exhausted(cands) =>
        CandidatesEmptyIff(reg, families, req, first, second);
        if cands == [] then Failure(NoViableCandidate)
        else
          assert families[0..] == families;
          Fallback(reg, families, req, first, second, cands)
  }

  /** A pass that finds a free queue finds it in a family it asks for. */
  lemma FoundServes(reg: Registry, families: seq<QueueFamily>, req: QueueCapsInfo, kind: MatchKind,
                    acc: seq<QueueFamily>, first: MatchKind, second: MatchKind, f: nat, i: nat)
    requires KnowsFamilies(reg, families) && (kind == first || kind == second)
    requires Pass(reg, families, req, kind, 0, acc) == Found(f, i)
    ensures exists p :: 0 <= p < |families| && Serves(families[p], QueueId(f, i), req, first, second)
  {
    var p :| 0 <= p < |families| && FoundAt(reg, families, req, kind, 0, p, f, i);
    assert Serves(families[p], QueueId(f, i), req, first, second);
  }

  /** The least-crowded fallback over a non-empty list of full candidates,
      each a family one of the passes asks for. */
  function Fallback(reg: Registry, families: seq<QueueFamily>, req: QueueCapsInfo,
                    first: MatchKind, second: MatchKind, cands: seq<QueueFamily>)
    : (r: Result<(Registry, QueueId), RegistryError>)
    requires Valid(reg) && KnowsFamilies(reg, families) && cands != []
    requires forall c :: c in cands ==>
               c in families && (Eligible(first, req, c) || Eligible(second, req, c)) && Full(reg, c)
    ensures r.Failure? ==> r.error == OutOfRange
    ensures CountsBelowMax(reg) ==> r.Success?
    ensures r.Success? ==> Valid(r.value.0) && Allocated(r.value.0, r.value.1)
    ensures r.Success? ==>
              RefCount(r.value.0, r.value.1) ==
                (if Allocated(reg, r.value.1) then RefCount(reg, r.value.1) + 1 else 1)
    ensures r.Success? ==> forall id :: id != r.value.1 ==>
              && (Allocated(r.value.0, id) <==> Allocated(reg, id))
              && (Allocated(reg, id) ==> RefCount(r.value.0, id) == RefCount(reg, id))
    ensures r.Success? && CountsBelowMax(reg) ==>
              exists p :: 0 <= p < |families| && Serves(families[p], r.value.1, req, first, second)
  {
    assert FullFamilies(reg, cands) by {
      forall p | 0 <= p < |cands|
        ensures cands[p].index in reg.queueMap && Full(reg, cands[p])
      {
        var c := cands[p];
        assert c in cands;
        var k :| 0 <= k < |families| && families[k] == c;
      }
    }
    var chosen := LeastCrowded(reg, cands);
    assert CountsBelowMax(reg) ==> exists p :: 0 <= p < |cands| && ChosenAt(reg, cands, 0, p, chosen, UINT_MAX) by {
      if CountsBelowMax(reg) && chosen == ((0, 0), UINT_MAX) {
        var c := cands[0];
        assert c in cands;
        assert Eligible(first, req, c) || Eligible(second, req, c);
        assert Allocated(reg, QueueId(c.index, 0));
        assert false;
      }
    }
    assert CountsBelowMax(reg) ==> exists p :: 0 <= p < |families| && Serves(families[p], QueueId(chosen.0.0, chosen.0.1), req, first, second) by {
      if CountsBelowMax(reg) {
        var p :| 0 <= p < |cands| && ChosenAt(reg, cands, 0, p, chosen, UINT_MAX);
        assert cands[p] in cands;
        var k :| 0 <= k < |families| && families[k] == cands[p];
        assert Serves(families[k], QueueId(chosen.0.0, chosen.0.1), req, first, second);
      }
    }
    if chosen.0.0 in reg.queueMap then Success(AllocateAt(reg, chosen.0.0, chosen.0.1))
    else Failure(OutOfRange)
  }

  /** After two exhausted passes the candidate list is empty exactly when no
      family is eligible for either pass. */
  lemma CandidatesEmptyIff(reg: Registry, families: seq<QueueFamily>, req: QueueCapsInfo,
                           first: MatchKind, second: MatchKind)
    requires KnowsFamilies(reg, families)
    requires Pass(reg, families, req, first, 0, []).Exhausted?
    requires Pass(reg, families, req, second, 0, Pass(reg, families, req, first, 0, []).candidates).Exhausted?
    ensures var c1 := Pass(reg, families, req, first, 0, []).candidates;
            var cands := Pass(reg, families, req, second, 0, c1).candidates;
            cands == [] <==> forall p :: 0 <= p < |families| ==>
                               !Eligible(first, req, families[p]) && !Eligible(second, req, families[p])
  {
    var c1 := Pass(reg, families, req, first, 0, []).candidates;
    var cands := Pass(reg, families, req, second, 0, c1).candidates;
    if cands != [] {
      var c := cands[0];
      assert c in cands;
      if c in c1 {
        assert c in families[0..] && Eligible(first, req, c);
      }
      assert c in families[0..];
      var p :| 0 <= p < |families| && families[p] == c;
    }
  }

  /** `allocateQueue` as written: exact matches first, then viable matches. */
  function AllocateQueue(reg: Registry, families: seq<QueueFamily>, req: QueueCapsInfo)
    : (r: Result<(Registry, QueueId), RegistryError>)
    requires Valid(reg) && KnowsFamilies(reg, families)
    ensures r.Success? ==> Valid(r.value.0) && Allocated(r.value.0, r.value.1)
    ensures r.Success? ==>
              RefCount(r.value.0, r.value.1) ==
                (if Allocated(reg, r.value.1) then RefCount(reg, r.value.1) + 1 else 1)
    ensures r.Success? ==> forall id :: id != r.value.1 ==>
              && (Allocated(r.value.0, id) <==> Allocated(reg, id))
              && (Allocated(reg, id) ==> RefCount(r.value.0, id) == RefCount(reg, id))
    ensures r.Success? && CountsBelowMax(reg) ==>
              exists p :: 0 <= p < |families| && Serves(families[p], r.value.1, req, Exact, Viable)
    ensures CountsBelowMax(reg) && r.Failure? ==> r.error == NoViableCandidate
    ensures r.Failure? && r.error == NoViableCandidate <==>
              forall p :: 0 <= p < |families| ==>
                !Eligible(Exact, req, families[p]) && !Eligible(Viable, req, families[p])
  {
    AllocateWith(reg, families, req, Exact, Viable)
  }

  /** `freeQueue` as written: a positive count is decremented and the entry
      kept; the entry and its stored queue are erased only when the count was
      already 0; the lock is never removed. */
  function FreeQueue(reg: Registry, id: QueueId): (r: Result<Registry, RegistryError>)
    requires Valid(reg)
    ensures r.Failure? <==> !Allocated(reg, id)
    ensures r.Success? && RefCount(reg, id) == 0 ==>
              !Allocated(r.value, id) && id !in r.value.storage
    ensures r.Success? && RefCount(reg, id) > 0 ==>
              && Allocated(r.value, id) && RefCount(r.value, id) == RefCount(reg, id) - 1
              && r.value.storage == reg.storage
    ensures r.Success? ==> Valid(r.value) && r.value.queueMap.Keys == reg.queueMap.Keys
    ensures r.Success? ==> forall other :: other != id ==>
              && (Allocated(r.value, other) <==> Allocated(reg, other))
              && (Allocated(reg, other) ==> RefCount(r.value, other) == RefCount(reg, other))
  {
    if !Allocated(reg, id) then Failure(OutOfRange)
    else
      assert EntryOk(reg, id);
      var e := reg.queueMap[id.family][id.index];
      if e.refCount == 0 then
        EraseEntryKeepsValid(reg, id);
        Success(EraseEntry(reg, e.queue))
      else
        SetEntryKeepsValid(reg, id, e.refCount - 1, reg.storage[id]);
        var r := SetEntry(reg, id, e.refCount - 1, reg.storage[id]);
        assert r.storage == reg.storage;
        Success(r)
  }
}

=== FILE: registry_lemmas.dfy ===
/** Properties of the queue registry: the pass order of `allocateQueue`, the
    least-crowded fallback, the reference-count life cycle, and the places where
    the code departs from its documentation (each with the evidently intended
    definition beside it). */
module QueueRegistryLemmas {
  import opened Wrappers
  import opened QueueLock
  import opened QueueRegistry

  /*** Pass order ***/

  /** A family is never both an exact and a viable match (the viable test
      negates compute, the exact test equates it), so no family is collected
      twice as a fallback candidate. */
  lemma ExactAndViableDisjoint(req: QueueCapsInfo, fam: QueueFamily)
    ensures !(ExactMatch(req, fam) && ViableMatch(req, fam))
  {
  }

  /** If some exact-match family with requested queues still has a free index,
      the allocation succeeds with a queue nobody holds yet, taken from the
      first such family in enumeration order at its lowest free index. */
  lemma ExactMatchesTriedFirst(reg: Registry, families: seq<QueueFamily>, req: QueueCapsInfo, p: nat)
    requires Valid(reg) && KnowsFamilies(reg, families)
    requires p < |families| && Eligible(Exact, req, families[p]) && !Full(reg, families[p])
    ensures AllocateQueue(reg, families, req).Success?
    ensures var id := AllocateQueue(reg, families, req).value.1;
            && !Allocated(reg, id)
            && exists q :: 0 <= q <= p && FoundAt(reg, families, req, Exact, 0, q, id.family, id.index)
  {
    var first := Pass(reg, families, req, Exact, 0, []);
    assert first.Found?;
    var q :| 0 <= q < |families| && FoundAt(reg, families, req, Exact, 0, q, first.family, first.index);
    assert q <= p;
  }

  /** With every exact-match family full, a viable family with a free index is
      used next: again the first one in enumeration order, at its lowest free
      index, with a queue nobody holds yet. */
  lemma ViableMatchesTriedSecond(reg: Registry, families: seq<QueueFamily>, req: QueueCapsInfo, p: nat)
    requires Valid(reg) && KnowsFamilies(reg, families)
    requires forall k :: 0 <= k < |families| && Eligible(Exact, req, families[k]) ==> Full(reg, families[k])
    requires p < |families| && Eligible(Viable, req, families[p]) && !Full(reg, families[p])
    ensures AllocateQueue(reg, families, req).Success?
    ensures var id := AllocateQueue(reg, families, req).value.1;
            && !Allocated(reg, id)
            && exists q :: 0 <= q <= p && FoundAt(reg, families, req, Viable, 0, q, id.family, id.index)
  {
    var first := Pass(reg, families, req, Exact, 0, []);
    assert first.Exhausted?;
    var second := Pass(reg, families, req, Viable, 0, first.candidates);
    assert second.Found?;
    var q :| 0 <= q < |families| && FoundAt(reg, families, req, Viable, 0, q, second.family, second.index);
    assert q <= p;
  }

  /*** The least-crowded fallback ***/

  /** The eligible families from position `k` on, in enumeration order. */
  function EligibleFrom(families: seq<QueueFamily>, req: QueueCapsInfo, kind: MatchKind, k: nat)
    : (r: seq<QueueFamily>)
    requires k <= |families|
    ensures forall c :: c in r ==> Eligible(kind, req, c)
    decreases |families| - k
  {
    if k == |families| then []
    else if Eligible(kind, req, families[k]) then [families[k]] + EligibleFrom(families, req, kind, k + 1)
    else EligibleFrom(families, req, kind, k + 1)
  }

  lemma AppendAssoc(a: seq<QueueFamily>, b: seq<QueueFamily>, c: seq<QueueFamily>)
    ensures a + b + c == a + (b + c)
  {
  }

  /** When every eligible family is full, a pass collects exactly the eligible
      families, in enumeration order, after the candidates it was given. */
  lemma {:induction false} PassCollectsEligible(reg: Registry, families: seq<QueueFamily>, req: QueueCapsInfo,
                                                kind: MatchKind, k: nat, acc: seq<QueueFamily>)
    requires KnowsFamilies(reg, families) && k <= |families|
    requires forall p :: k <= p < |families| && Eligible(kind, req, families[p]) ==> Full(reg, families[p])
    ensures Pass(reg, families, req, kind, k, acc) == Exhausted(acc + EligibleFrom(families, req, kind, k))
    decreases |families| - k
  {
    if k == |families| {
      assert acc + [] == acc;
    } else if Eligible(kind, req, families[k]) {
      var fam := families[k];
      var ff := FirstFree(reg.queueMap[fam.index], 0, fam.requestedCount);
      assert ff.None?;
      PassCollectsEligible(reg, families, req, kind, k + 1, acc + [fam]);
      assert Pass(reg, families, req, kind, k, acc) == Pass(reg, families, req, kind, k + 1, acc + [fam]);
      var rest := EligibleFrom(families, req, kind, k + 1);
      assert EligibleFrom(families, req, kind, k) == [fam] + rest;
      AppendAssoc(acc, [fam], rest);
    } else {
      PassCollectsEligible(reg, families, req, kind, k + 1, acc);
      assert Pass(reg, families, req, kind, k, acc) == Pass(reg, families, req, kind, k + 1, acc);
    }
  }

  /** The fallback candidates: the full exact families, then the full viable
      families, each in enumeration order; when every eligible family is full
      the allocation is the least-crowded queue among them. */
  lemma FallbackIsLeastCrowded(reg: Registry, families: seq<QueueFamily>, req: QueueCapsInfo)
      returns (cands: seq<QueueFamily>)
    requires Valid(reg) && KnowsFamilies(reg, families)
    requires forall k :: 0 <= k < |families| && (Eligible(Exact, req, families[k]) || Eligible(Viable, req, families[k]))
               ==> Full(reg, families[k])
    requires exists k :: 0 <= k < |families| && (Eligible(Exact, req, families[k]) || Eligible(Viable, req, families[k]))
    ensures cands == EligibleFrom(families, req, Exact, 0) + EligibleFrom(families, req, Viable, 0)
    ensures cands != [] && FullFamilies(reg, cands)
    ensures var chosen := LeastCrowded(reg, cands);
            AllocateQueue(reg, families, req) ==
              if chosen.0.0 in reg.queueMap then Success(AllocateAt(reg, chosen.0.0, chosen.0.1))
              else Failure(OutOfRange)
  {
    var e := EligibleFrom(families, req, Exact, 0);
    var v := EligibleFrom(families, req, Viable, 0);
    PassCollectsEligible(reg, families, req, Exact, 0, []);
    assert [] + e == e;
    PassCollectsEligible(reg, families, req, Viable, 0, e);
    cands := e + v;
    CandidatesNonEmptyAndFull(reg, families, req);
  }

  lemma CandidatesNonEmptyAndFull(reg: Registry, families: seq<QueueFamily>, req: QueueCapsInfo)
    requires KnowsFamilies(reg, families)
    requires forall k :: 0 <= k < |families| && (Eligible(Exact, req, families[k]) || Eligible(Viable, req, families[k]))
               ==> Full(reg, families[k])
    requires exists k :: 0 <= k < |families| && (Eligible(Exact, req, families[k]) || Eligible(Viable, req, families[k]))
    ensures var cands := EligibleFrom(families, req, Exact, 0) + EligibleFrom(families, req, Viable, 0);
            cands != [] && FullFamilies(reg, cands)
  {
    var e := EligibleFrom(families, req, Exact, 0);
    var v := EligibleFrom(families, req, Viable, 0);
    var cands := e + v;
    var k :| 0 <= k < |families| && (Eligible(Exact, req, families[k]) || Eligible(Viable, req, families[k]));
    if Eligible(Exact, req, families[k]) {
      EligibleIsCollected(families, req, Exact, 0, k);
    } else {
      EligibleIsCollected(families, req, Viable, 0, k);
    }
    assert families[k] in cands;
    CollectedAreFamilies(families, req, Exact, 0);
    CollectedAreFamilies(families, req, Viable, 0);
    forall p | 0 <= p < |cands|
      ensures cands[p].index in reg.queueMap && Full(reg, cands[p])
    {
      assert cands[p] in e || cands[p] in v;
      var j :| 0 <= j < |families| && families[j] == cands[p];
    }
  }

  /** With every exact and viable family full and at least one of them present,
      allocation shares an ALREADY allocated queue: the one of least count over
      the exact families then the viable ones, ties going to the earlier family
      and then the lower index; its count goes up by one. */
  lemma FallbackSharesLeastCrowded(reg: Registry, families: seq<QueueFamily>, req: QueueCapsInfo)
    requires Valid(reg) && KnowsFamilies(reg, families) && CountsBelowMax(reg)
    requires forall k :: 0 <= k < |families| && (Eligible(Exact, req, families[k]) || Eligible(Viable, req, families[k]))
               ==> Full(reg, families[k])
    requires exists k :: 0 <= k < |families| && (Eligible(Exact, req, families[k]) || Eligible(Viable, req, families[k]))
    ensures var cands := EligibleFrom(families, req, Exact, 0) + EligibleFrom(families, req, Viable, 0);
            var r := AllocateQueue(reg, families, req);
            && FullFamilies(reg, cands)
            && r.Success?
            && Allocated(reg, r.value.1)
            && RefCount(r.value.0, r.value.1) == RefCount(reg, r.value.1) + 1
            && exists p :: 0 <= p < |cands| &&
                 ChosenAt(reg, cands, 0, p, ((r.value.1.family, r.value.1.index), RefCount(reg, r.value.1)), UINT_MAX)
  {
    var cands := FallbackIsLeastCrowded(reg, families, req);
    var chosen := LeastCrowded(reg, cands);
    assert chosen != ((0, 0), UINT_MAX) by {
      assert cands[0] in cands;
      assert Allocated(reg, QueueId(cands[0].index, 0));
    }
    var p :| 0 <= p < |cands| && ChosenAt(reg, cands, 0, p, chosen, UINT_MAX);
    assert Allocated(reg, QueueId(chosen.0.0, chosen.0.1));
  }

  lemma {:induction false} EligibleIsCollected(families: seq<QueueFamily>, req: QueueCapsInfo,
                                                   kind: MatchKind, k: nat, p: nat)
    requires k <= p < |families| && Eligible(kind, req, families[p])
    ensures families[p] in EligibleFrom(families, req, kind, k)
    decreases p - k
  {
    if k < p {
      EligibleIsCollected(families, req, kind, k + 1, p);
    }
  }

  lemma {:induction false} CollectedAreFamilies(families: seq<QueueFamily>, req: QueueCapsInfo, kind: MatchKind, k: nat)
    requires k <= |families|
    ensures forall c :: c in EligibleFrom(families, req, kind, k) ==> c in families[k..]
    decreases |families| - k
  {
    if k < |families| {
      CollectedAreFamilies(families, req, kind, k + 1);
    }
  }

  /*** Where the code departs from its documentation ***/

  /** The viable test as written rejects the capability it is asked for: for a
      request that needs compute (or transfer), a viable family NEVER offers it. */
  lemma ViableMatchExcludesRequestedCapability(req: QueueCapsInfo, fam: QueueFamily)
    requires ViableMatch(req, fam)
    ensures req.compute ==> !fam.compute
    ensures req.transfer ==> !fam.transfer
  {
  }

  /** The graphics engine's request (all four capabilities) on a device whose
      only family offers graphics alone: the viable pass hands out that family's
      queue although it lacks compute and transfer. */
  lemma AllocationCanLackRequestedCapability()
    ensures var families := [QueueFamily(0, true, true, false, false, 1)];
            var req := QueueCapsInfo(true, true, true, true);
            var r := AllocateQueue(Init(families), families, req);
            && r.Success? && r.value.1 == QueueId(0, 0)
            && !families[0].compute && !families[0].transfer
  {
    var families := [QueueFamily(0, true, true, false, false, 1)];
    var req := QueueCapsInfo(true, true, true, true);
    var reg := Init(families);
    assert families[0].index == 0;
    assert 0 in reg.queueMap;
    assert Pass(reg, families, req, Exact, 0, []) == Exhausted([]);
    assert FirstFree(reg.queueMap[0], 0, 1) == Some(0);
    assert Pass(reg, families, req, Viable, 0, []) == Found(0, 0);
  }

  /** A pass does not look at the `present` flag of the request. */
  lemma {:induction false} PassIgnoresPresent(reg: Registry, families: seq<QueueFamily>, req: QueueCapsInfo,
                                              kind: MatchKind, k: nat, acc: seq<QueueFamily>)
    requires KnowsFamilies(reg, families) && k <= |families| && kind in {Exact, Viable}
    ensures Pass(reg, families, req, kind, k, acc)
         == Pass(reg, families, req.(present := !req.present), kind, k, acc)
    decreases |families| - k
  {
    if k < |families| {
      var fam := families[k];
      assert Eligible(kind, req, fam) == Eligible(kind, req.(present := !req.present), fam);
      PassIgnoresPresent(reg, families, req, kind, k + 1, acc);
      PassIgnoresPresent(reg, families, req, kind, k + 1, acc + [fam]);
    }
  }

  /** `allocateQueue` never consults the `present` flag: flipping it changes
      nothing, so a request for presentation can get a queue of a family that
      cannot present. */
  lemma AllocationIgnoresPresent(reg: Registry, families: seq<QueueFamily>, req: QueueCapsInfo)
    requires Valid(reg) && KnowsFamilies(reg, families)
    ensures AllocateQueue(reg, families, req) == AllocateQueue(reg, families, req.(present := !req.present))
  {
    var req' := req.(present := !req.present);
    PassIgnoresPresent(reg, families, req, Exact, 0, []);
    var first := Pass(reg, families, req, Exact, 0, []);
    if first.Exhausted? {
      PassIgnoresPresent(reg, families, req, Viable, 0, first.candidates);
    }
  }

  /** The corrected allocation (exact match that honours `present`, then a true
      superset test) only ever hands out a queue of a family offering every
      requested capability. */
  lemma IntendedAllocationIsSuperset(reg: Registry, families: seq<QueueFamily>, req: QueueCapsInfo)
    requires Valid(reg) && KnowsFamilies(reg, families) && CountsBelowMax(reg)
    ensures var r := AllocateWith(reg, families, req, ExactWithPresent, Superset);
            r.Success? ==>
              exists p :: 0 <= p < |families| && families[p].index == r.value.1.family
                          && r.value.1.index < families[p].requestedCount
                          && SupersetMatch(req, families[p])
  {
    var r := AllocateWith(reg, families, req, ExactWithPresent, Superset);
    if r.Success? {
      var p :| 0 <= p < |families| && Serves(families[p], r.value.1, req, ExactWithPresent, Superset);
      assert SupersetMatch(req, families[p]);
    }
  }

  /** On the device of `AllocationCanLackRequestedCapability` the corrected
      allocation reports that no family can serve the request. */
  lemma IntendedAllocationRefusesIncapableFamily()
    ensures var families := [QueueFamily(0, true, true, false, false, 1)];
            var req := QueueCapsInfo(true, true, true, true);
            AllocateWith(Init(families), families, req, ExactWithPresent, Superset) == Failure(NoViableCandidate)
  {
    var families := [QueueFamily(0, true, true, false, false, 1)];
    var req := QueueCapsInfo(true, true, true, true);
    assert !Eligible(ExactWithPresent, req, families[0]) && !Eligible(Superset, req, families[0]);
  }

  /** The header promises that a free which brings the count to 1 abolishes the
      lock; as written the lock of a queue shared by two engines survives. */
  lemma FreeQueueKeepsLock(reg: Registry, id: QueueId)
    requires Valid(reg) && Allocated(reg, id) && RefCount(reg, id) == 2
    ensures FreeQueue(reg, id).Success?
    ensures var r := FreeQueue(reg, id).value;
            Allocated(r, id) && RefCount(r, id) == 1 && r.storage[id].HasLock()
  {
    assert EntryOk(reg, id);
  }

  /** The header promises that a free which brings the count to 0 frees the
      queue; as written the queue stays registered with count 0. */
  lemma FreeQueueKeepsQueueAtZero(reg: Registry, id: QueueId)
    requires Valid(reg) && Allocated(reg, id) && RefCount(reg, id) == 1
    ensures FreeQueue(reg, id).Success?
    ensures var r := FreeQueue(reg, id).value;
            Allocated(r, id) && RefCount(r, id) == 0 && id in r.storage
  {
    assert EntryOk(reg, id);
  }

  /** One engine taking a fresh queue and giving it back does not restore the
      registry as written: it takes a second free to erase the entry. */
  lemma FreshQueueNeedsTwoFrees(reg: Registry, family: nat, index: nat)
    requires Valid(reg) && family in reg.queueMap && !Allocated(reg, QueueId(family, index))
    ensures var id := QueueId(family, index);
            var once := FreeQueue(AllocateAt(reg, family, index).0, id);
            && once.Success? && once.value != reg
            && FreeQueue(once.value, id) == Success(reg)
  {
    var id := QueueId(family, index);
    var q := QueueLock.New(id, false);
    var a := AllocateAt(reg, family, index).0;
    assert a == SetEntry(reg, id, 1, q);
    var once := FreeQueue(a, id).value;
    assert Allocated(once, id);
    assert once.queueMap[family] == reg.queueMap[family][index := Entry(id, 0)];
    assert once.queueMap == SetEntry(reg, id, 0, q).queueMap;
    assert once == SetEntry(reg, id, 0, q);
    FreeZeroEntryRestores(reg, id, q);
  }

  /** Erasing an entry written at count 0 over a registry that did not hold
      it gives that registry back. */
  lemma FreeZeroEntryRestores(reg: Registry, id: QueueId, q: Queue)
    requires Valid(reg) && id.family in reg.queueMap && !Allocated(reg, id) && id !in reg.storage
    requires q.id == id && q.lock != Held
    ensures Valid(SetEntry(reg, id, 0, q))
    ensures FreeQueue(SetEntry(reg, id, 0, q), id) == Success(reg)
  {
    SetEntryKeepsValid(reg, id, 0, q);
    var once := SetEntry(reg, id, 0, q);
    var twice := FreeQueue(once, id).value;
    assert twice.storage == reg.storage;
    assert twice.queueMap[id.family] == reg.queueMap[id.family];
    assert twice.queueMap == reg.queueMap;
  }

  /** The invariant the header describes: every registered queue has a positive
      count, and it has a lock exactly when it is shared. */
  ghost predicate IntendedValid(reg: Registry) {
    && Valid(reg)
    && forall id :: Allocated(reg, id) ==>
         RefCount(reg, id) >= 1 && (reg.storage[id].HasLock() <==> RefCount(reg, id) >= 2)
  }

  /** `freeQueue` as its header describes it: the count is decremented, a
      count reaching 1 gives up the lock, a count reaching 0 erases the queue. */
  function FreeQueueIntended(reg: Registry, id: QueueId): (r: Result<Registry, RegistryError>)
    requires Valid(reg)
    ensures r.Failure? <==> !Allocated(reg, id)
    ensures r.Success? && RefCount(reg, id) <= 1 ==> !Allocated(r.value, id) && id !in r.value.storage
    ensures r.Success? && RefCount(reg, id) >= 2 ==>
              && Allocated(r.value, id) && RefCount(r.value, id) == RefCount(reg, id) - 1
              && id in r.value.storage
              && (RefCount(reg, id) == 2 ==> !r.value.storage[id].HasLock())
    ensures r.Success? ==> Valid(r.value)
  {
    if !Allocated(reg, id) then Failure(OutOfRange)
    else
      var count := RefCount(reg, id);
      if count <= 1 then
        EraseEntryKeepsValid(reg, id);
        Success(EraseEntry(reg, id))
      else
        var q := if count == 2 then GiveUpLock(reg.storage[id]) else reg.storage[id];
        DecrementEntry(reg, id);
        Success(SetEntry(reg, id, count - 1, q))
  }

  /** The corrected free keeps the header's invariant. */
  lemma FreeQueueIntendedKeepsInvariant(reg: Registry, id: QueueId)
    requires IntendedValid(reg) && Allocated(reg, id)
    ensures IntendedValid(FreeQueueIntended(reg, id).value)
  {
    if RefCount(reg, id) <= 1 {
      EraseKeepsIntended(reg, id);
    } else {
      DecrementKeepsIntended(reg, id);
    }
  }

  lemma EraseKeepsIntended(reg: Registry, id: QueueId)
    requires IntendedValid(reg) && Allocated(reg, id)
    ensures IntendedValid(EraseEntry(reg, id))
  {
    EraseEntryKeepsValid(reg, id);
    var r := EraseEntry(reg, id);
    forall other | Allocated(r, other)
      ensures RefCount(r, other) >= 1 && (r.storage[other].HasLock() <==> RefCount(r, other) >= 2)
    {
      assert Allocated(reg, other);
    }
  }

  /** The decrement of a shared queue, giving up the lock as the count
      reaches 1: the count drops by one and the registry stays valid. */
  lemma DecrementEntry(reg: Registry, id: QueueId)
    requires Valid(reg) && Allocated(reg, id) && RefCount(reg, id) >= 2
    ensures var count := RefCount(reg, id);
            var q := if count == 2 then GiveUpLock(reg.storage[id]) else reg.storage[id];
            var r := SetEntry(reg, id, count - 1, q);
            && Allocated(r, id) && RefCount(r, id) == count - 1 && id in r.storage
            && (count == 2 ==> !r.storage[id].HasLock())
            && Valid(r)
  {
    assert EntryOk(reg, id);
    var count := RefCount(reg, id);
    var q := if count == 2 then GiveUpLock(reg.storage[id]) else reg.storage[id];
    SetEntryKeepsValid(reg, id, count - 1, q);
  }

  /** The same decrement keeps the header's invariant. */
  lemma DecrementKeepsIntended(reg: Registry, id: QueueId)
    requires IntendedValid(reg) && Allocated(reg, id) && RefCount(reg, id) >= 2
    ensures var count := RefCount(reg, id);
            var q := if count == 2 then GiveUpLock(reg.storage[id]) else reg.storage[id];
            IntendedValid(SetEntry(reg, id, count - 1, q))
  {
    assert EntryOk(reg, id);
    var count := RefCount(reg, id);
    var q := if count == 2 then GiveUpLock(reg.storage[id]) else reg.storage[id];
    SetEntryKeepsIntended(reg, id, count - 1, q);
  }

  /** Writing an entry whose count is positive and whose queue has a lock
      exactly when the count is at least 2 keeps the header's invariant. */
  lemma SetEntryKeepsIntended(reg: Registry, id: QueueId, count: nat, q: Queue)
    requires IntendedValid(reg) && id.family in reg.queueMap
    requires q.id == id && q.lock != Held && count >= 1 && (q.HasLock() <==> count >= 2)
    ensures IntendedValid(SetEntry(reg, id, count, q))
  {
    SetEntryKeepsValid(reg, id, count, q);
    var r := SetEntry(reg, id, count, q);
    forall other | Allocated(r, other)
      ensures RefCount(r, other) >= 1 && (r.storage[other].HasLock() <==> RefCount(r, other) >= 2)
    {
      if other != id {
        assert Allocated(reg, other);
      }
    }
  }

  /** `m_allocateQueue` keeps the header's invariant: a fresh queue has count 1
      and no lock, and the lock appears exactly as the count reaches 2. */
  lemma AllocateKeepsIntendedInvariant(reg: Registry, family: nat, index: nat)
    requires IntendedValid(reg) && family in reg.queueMap
    ensures IntendedValid(AllocateAt(reg, family, index).0)
  {
    var (r, id) := AllocateAt(reg, family, index);
    forall other | Allocated(r, other)
      ensures RefCount(r, other) >= 1 && (r.storage[other].HasLock() <==> RefCount(r, other) >= 2)
    {
      if other != id {
        assert Allocated(reg, other);
      }
    }
  }

  /** With the corrected free, handing out a queue and taking it back restores
      the registry exactly, whether the queue was fresh or already shared. */
  lemma IntendedAllocateThenFreeRestores(reg: Registry, family: nat, index: nat)
    requires IntendedValid(reg) && family in reg.queueMap
    ensures FreeQueueIntended(AllocateAt(reg, family, index).0, QueueId(family, index)) == Success(reg)
  {
    if Allocated(reg, QueueId(family, index)) {
      SharedAllocateThenFreeRestores(reg, family, index);
    } else {
      FreshAllocateThenFreeRestores(reg, family, index);
    }
  }

  lemma SharedAllocateThenFreeRestores(reg: Registry, family: nat, index: nat)
    requires IntendedValid(reg) && family in reg.queueMap && Allocated(reg, QueueId(family, index))
    ensures FreeQueueIntended(AllocateAt(reg, family, index).0, QueueId(family, index)) == Success(reg)
  {
    var id := QueueId(family, index);
    assert EntryOk(reg, id);
    var a := AllocateAt(reg, family, index).0;
    var r := FreeQueueIntended(a, id).value;
    var e := reg.queueMap[family][index];
    assert r.queueMap[family][index] == e;
    assert r.queueMap[family] == reg.queueMap[family];
    assert r.queueMap == reg.queueMap;
    assert r.storage[id] == reg.storage[id];
    assert r.storage == reg.storage;
  }

  lemma FreshAllocateThenFreeRestores(reg: Registry, family: nat, index: nat)
    requires IntendedValid(reg) && family in reg.queueMap && !Allocated(reg, QueueId(family, index))
    ensures FreeQueueIntended(AllocateAt(reg, family, index).0, QueueId(family, index)) == Success(reg)
  {
    var id := QueueId(family, index);
    var a := AllocateAt(reg, family, index).0;
    var r := FreeQueueIntended(a, id).value;
    assert id !in reg.storage;
    assert r.storage == reg.storage;
    assert r.queueMap[family] == reg.queueMap[family];
    assert r.queueMap == reg.queueMap;
  }

  /** `k` allocations of the same queue. */
  function AllocateTimes(reg: Registry, family: nat, index: nat, k: nat): (r: Registry)
    requires IntendedValid(reg) && family in reg.queueMap
    ensures IntendedValid(r) && family in r.queueMap
  {
    if k == 0 then reg
    else
      var prev := AllocateTimes(reg, family, index, k - 1);
      AllocateKeepsIntendedInvariant(prev, family, index);
      AllocateAt(prev, family, index).0
  }

  /** `k` corrected frees of the same queue, stopping at the first failure. */
  function FreeTimesIntended(reg: Registry, id: QueueId, k: nat): Result<Registry, RegistryError>
    requires Valid(reg)
    decreases k
  {
    if k == 0 then Success(reg)
    else match FreeQueueIntended(reg, id)
      case Failure(e) => Failure(e)
      case Success(r) => FreeTimesIntended(r, id, k - 1)
  }

  lemma FreeTimesStep(cur: Registry, prev: Registry, id: QueueId, k: nat, j: nat)
    requires Valid(cur) && Valid(prev) && k == j + 1
    requires FreeQueueIntended(cur, id) == Success(prev)
    ensures FreeTimesIntended(cur, id, k) == FreeTimesIntended(prev, id, j)
  {
  }

  /** With the corrected free, `k` allocations of a queue are undone by exactly
      `k` frees. */
  lemma {:induction false} IntendedKAllocationsKFrees(reg: Registry, family: nat, index: nat, k: nat)
    requires IntendedValid(reg) && family in reg.queueMap
    ensures FreeTimesIntended(AllocateTimes(reg, family, index, k), QueueId(family, index), k) == Success(reg)
    decreases k
  {
    var id := QueueId(family, index);
    if k == 0 {
      assert AllocateTimes(reg, family, index, 0) == reg;
    } else {
      var j: nat := k - 1;
      var prev := AllocateTimes(reg, family, index, j);
      var cur := AllocateTimes(reg, family, index, k);
      AllocateTimesStep(reg, family, index, k, j);
      IntendedAllocateThenFreeRestores(prev, family, index);
      FreeTimesStep(cur, prev, id, k, j);
      IntendedKAllocationsKFrees(reg, family, index, j);
    }
  }

  lemma AllocateTimesStep(reg: Registry, family: nat, index: nat, k: nat, j: nat)
    requires IntendedValid(reg) && family in reg.queueMap && k == j + 1
    ensures var prev := AllocateTimes(reg, family, index, j);
            AllocateTimes(reg, family, index, k) == AllocateAt(prev, family, index).0
  {
  }
}

=== FILE: surface_policy.dfy ===
/** The window's swapchain create-info policy: which present mode and
    composite-alpha mode it picks from what the surface supports, and the
    fixed fields it fills in. The surface queries are inputs. */
module WindowPolicy {
  import opened Wrappers
  import opened SwapchainSetup

  const PRESENT_MODE_IMMEDIATE: nat := 0
  const PRESENT_MODE_MAILBOX: nat := 1
  const PRESENT_MODE_FIFO: nat := 2

  const COMPOSITE_ALPHA_OPAQUE: bv32 := 1
  const COMPOSITE_ALPHA_PRE_MULTIPLIED: bv32 := 2
  const COMPOSITE_ALPHA_POST_MULTIPLIED: bv32 := 4
  const COMPOSITE_ALPHA_INHERIT: bv32 := 8

  /** The composite-alpha modes in the order the window prefers them. */
  const ALPHA_PREFERENCE: seq<bv32> :=
    [COMPOSITE_ALPHA_OPAQUE, COMPOSITE_ALPHA_PRE_MULTIPLIED,
     COMPOSITE_ALPHA_POST_MULTIPLIED, COMPOSITE_ALPHA_INHERIT]

  /** What the surface reports about itself. */
  datatype SurfaceCaps = SurfaceCaps(
    minImageCount: nat,
    currentExtent: Extent,
    maxImageExtent: Extent,
    currentTransform: nat,
    supportedCompositeAlpha: bv32)

  datatype SurfaceFormat = SurfaceFormat(format: nat, colorSpace: nat)

  /** `std::any_of(modes, mode == m)`. */
  function AnyOf(modes: seq<nat>, m: nat): (r: bool)
    ensures r <==> m in modes
    decreases |modes|
  {
    if modes == [] then false
    else modes[0] == m || AnyOf(modes[1..], m)
  }

  /** Mailbox if offered, else immediate if offered, else FIFO. */
  function PickPresentMode(modes: seq<nat>): (m: nat)
    ensures m == PRESENT_MODE_MAILBOX <==> PRESENT_MODE_MAILBOX in modes
    ensures m == PRESENT_MODE_IMMEDIATE <==>
              PRESENT_MODE_MAILBOX !in modes && PRESENT_MODE_IMMEDIATE in modes
    ensures m == PRESENT_MODE_FIFO <==>
              PRESENT_MODE_MAILBOX !in modes && PRESENT_MODE_IMMEDIATE !in modes
  {
    if AnyOf(modes, PRESENT_MODE_MAILBOX) then PRESENT_MODE_MAILBOX
    else if AnyOf(modes, PRESENT_MODE_IMMEDIATE) then PRESENT_MODE_IMMEDIATE
    else PRESENT_MODE_FIFO
  }

  /** The pick is always a mode the surface offers, given that it offers FIFO
      (which every Vulkan surface must); offered alone, a mode is picked. */
  lemma PickPresentModeIsOffered(modes: seq<nat>)
    ensures PRESENT_MODE_FIFO in modes ==> PickPresentMode(modes) in modes
    ensures PickPresentMode([PickPresentMode(modes)]) == PickPresentMode(modes)
  {
  }

  /** Whether the bit of `flag` is set in `mask`. */
  predicate Supports(mask: bv32, flag: bv32) {
    mask & flag != 0
  }

  /** The first flag of `flags` whose bit is set in `mask`. */
  function FirstSupported(mask: bv32, flags: seq<bv32>): (r: Option<nat>)
    ensures r.Some? ==> r.value < |flags| && Supports(mask, flags[r.value])
    ensures r.Some? ==> forall k :: 0 <= k < r.value ==> !Supports(mask, flags[k])
    ensures r.None? ==> forall k :: 0 <= k < |flags| ==> !Supports(mask, flags[k])
    decreases |flags|
  {
    if flags == [] then None
    else if Supports(mask, flags[0]) then Some(0)
    else match FirstSupported(mask, flags[1..])
      case None => None
      case Some(k) => Some(k + 1)
  }

  /** The first preferred composite-alpha mode the surface supports, or
      opaque when it supports none of them. */
  function PickCompositeAlpha(mask: bv32): (a: bv32)
    ensures a in ALPHA_PREFERENCE
    ensures Supports(mask, a) || (a == COMPOSITE_ALPHA_OPAQUE && forall k :: 0 <= k < 4 ==> !Supports(mask, ALPHA_PREFERENCE[k]))
    ensures forall k :: 0 <= k < 4 && ALPHA_PREFERENCE[k] != a && Supports(mask, ALPHA_PREFERENCE[k]) ==>
              exists j :: 0 <= j < k && ALPHA_PREFERENCE[j] == a
  {
    match FirstSupported(mask, ALPHA_PREFERENCE)
    case None => COMPOSITE_ALPHA_OPAQUE
    case Some(k) => ALPHA_PREFERENCE[k]
  }

  /** A surface offering opaque always gets opaque, and a surface offering
      just the picked mode gets that mode again. */
  lemma PickCompositeAlphaStable(mask: bv32)
    ensures Supports(mask, COMPOSITE_ALPHA_OPAQUE) ==> PickCompositeAlpha(mask) == COMPOSITE_ALPHA_OPAQUE
    ensures PickCompositeAlpha(PickCompositeAlpha(mask)) == PickCompositeAlpha(mask)
  {
    var a := PickCompositeAlpha(mask);
    assert a == 1 || a == 2 || a == 4 || a == 8;
  }

  /** `getCreateInfo`: fills the window's create-info member. `prev` is that
      member before the call; the fields the window never writes (flags and
      the old swapchain) keep their values. The first surface format is
      used, so the surface must report at least one. */
  function GetCreateInfo(prev: CreateInfo, surface: nat, caps: SurfaceCaps,
                         formats: seq<SurfaceFormat>, modes: seq<nat>): (ci: CreateInfo)
    requires |formats| > 0
    ensures ci.sType == STRUCTURE_TYPE_SWAPCHAIN_CREATE_INFO && ci.pNext == NULL
    ensures ci.surface == surface
    ensures ci.queueFamilyIndexCount == 0 && ci.pQueueFamilyIndices == NULL
    ensures ci.imageExtent == caps.maxImageExtent && ci.minImageCount == caps.minImageCount
    ensures ci.imageUsage == IMAGE_USAGE_COLOR_ATTACHMENT && ci.imageSharingMode == SHARING_MODE_EXCLUSIVE
    ensures ci.imageArrayLayers == 1
    ensures ci.imageFormat == formats[0].format && ci.imageColorSpace == formats[0].colorSpace
    ensures ci.presentMode == PickPresentMode(modes)
    ensures ci.compositeAlpha == PickCompositeAlpha(caps.supportedCompositeAlpha) as nat
    ensures ci.preTransform == caps.currentTransform && !ci.clipped
    ensures ci.flags == prev.flags && ci.oldSwapchain == prev.oldSwapchain
  {
    CreateInfo(
      sType := STRUCTURE_TYPE_SWAPCHAIN_CREATE_INFO,
      pNext := NULL,
      flags := prev.flags,
      surface := surface,
      minImageCount := caps.minImageCount,
      imageFormat := formats[0].format,
      imageColorSpace := formats[0].colorSpace,
      imageExtent := caps.maxImageExtent,
      imageArrayLayers := 1,
      imageUsage := IMAGE_USAGE_COLOR_ATTACHMENT,
      imageSharingMode := SHARING_MODE_EXCLUSIVE,
      queueFamilyIndexCount := 0,
      pQueueFamilyIndices := NULL,
      preTransform := caps.currentTransform,
      compositeAlpha := PickCompositeAlpha(caps.supportedCompositeAlpha) as nat,
      presentMode := PickPresentMode(modes),
      clipped := false,
      oldSwapchain := prev.oldSwapchain)
  }

  /** The window's create-info is already in the form the swapchain
      constructor normalises to, so the driver receives it unchanged; the
      window never sets an old swapchain (its member starts zeroed), so this
      holds from the first call on. */
  lemma WindowCreateInfoIsNormal(prev: CreateInfo, surface: nat, caps: SurfaceCaps,
                                 formats: seq<SurfaceFormat>, modes: seq<nat>)
    requires |formats| > 0 && prev.oldSwapchain == NULL
    ensures var ci := GetCreateInfo(prev, surface, caps, formats, modes);
            Normalize(ci) == ci && GetCreateInfo(ci, surface, caps, formats, modes) == ci
  {
  }
}

=== FILE: swapchain.dfy ===
/** Swapchain construction: the create-info record handed to the driver, its
    normalisation, the one-off layout transition of every image and the image
    views. Constants are the values the Vulkan 1.3 specification assigns.
    Pointers and handles are numbers, 0 standing for null. */
module SwapchainSetup {

  const NULL: nat := 0

  const STRUCTURE_TYPE_SWAPCHAIN_CREATE_INFO: nat := 1000001000
  const STRUCTURE_TYPE_IMAGE_MEMORY_BARRIER: nat := 45
  const IMAGE_USAGE_COLOR_ATTACHMENT: nat := 0x10
  const SHARING_MODE_EXCLUSIVE: nat := 0
  const IMAGE_LAYOUT_UNDEFINED: nat := 0
  const IMAGE_LAYOUT_PRESENT_SRC: nat := 1000001002
  const QUEUE_FAMILY_IGNORED: nat := 0xFFFF_FFFF
  const IMAGE_ASPECT_COLOR: nat := 1
  const ACCESS_MEMORY_READ: nat := 0x8000

  datatype Extent = Extent(width: nat, height: nat)

  /** The fields of `VkSwapchainCreateInfoKHR`. */
  datatype CreateInfo = CreateInfo(
    sType: nat,
    pNext: nat,
    flags: nat,
    surface: nat,
    minImageCount: nat,
    imageFormat: nat,
    imageColorSpace: nat,
    imageExtent: Extent,
    imageArrayLayers: nat,
    imageUsage: nat,
    imageSharingMode: nat,
    queueFamilyIndexCount: nat,
    pQueueFamilyIndices: nat,
    preTransform: nat,
    compositeAlpha: nat,
    presentMode: nat,
    clipped: bool,
    oldSwapchain: nat)

  /** The fields the constructor overrides, at the values it gives them. */
  predicate Normal(ci: CreateInfo) {
    && ci.pNext == NULL
    && ci.imageSharingMode == SHARING_MODE_EXCLUSIVE
    && ci.sType == STRUCTURE_TYPE_SWAPCHAIN_CREATE_INFO
    && ci.oldSwapchain == NULL
    && ci.pQueueFamilyIndices == NULL
    && ci.imageUsage == IMAGE_USAGE_COLOR_ATTACHMENT
  }

  /** Two create-infos agree on every field the constructor keeps. */
  predicate SameKeptFields(a: CreateInfo, b: CreateInfo) {
    && a.flags == b.flags
    && a.surface == b.surface
    && a.minImageCount == b.minImageCount
    && a.imageFormat == b.imageFormat
    && a.imageColorSpace == b.imageColorSpace
    && a.imageExtent == b.imageExtent
    && a.imageArrayLayers == b.imageArrayLayers
    && a.queueFamilyIndexCount == b.queueFamilyIndexCount
    && a.preTransform == b.preTransform
    && a.compositeAlpha == b.compositeAlpha
    && a.presentMode == b.presentMode
    && a.clipped == b.clipped
  }

  /** The copy of the factory's create-info the constructor hands the driver:
      the overridden fields are forced, every other field is copied. */
  function Normalize(ci: CreateInfo): (r: CreateInfo)
    ensures Normal(r) && SameKeptFields(r, ci)
    ensures Normal(ci) ==> r == ci
  {
    ci.(pNext := NULL,
        imageSharingMode := SHARING_MODE_EXCLUSIVE,
        sType := STRUCTURE_TYPE_SWAPCHAIN_CREATE_INFO,
        oldSwapchain := NULL,
        pQueueFamilyIndices := NULL,
        imageUsage := IMAGE_USAGE_COLOR_ATTACHMENT)
  }

  /** Normalising twice is normalising once, and two create-infos normalise
      to the same record exactly when they agree on the kept fields. */
  lemma NormalizeIdempotent(a: CreateInfo, b: CreateInfo)
    ensures Normalize(Normalize(a)) == Normalize(a)
    ensures Normalize(a) == Normalize(b) <==> SameKeptFields(a, b)
  {
    if SameKeptFields(a, b) {
      assert Normalize(a) == Normalize(b);
    }
  }

  /** An image-memory barrier, the fields the constructor sets. */
  datatype Barrier = Barrier(
    image: nat,
    sType: nat,
    pNext: nat,
    oldLayout: nat,
    newLayout: nat,
    srcQueueFamilyIndex: nat,
    dstQueueFamilyIndex: nat,
    aspectMask: nat,
    baseArrayLayer: nat,
    baseMipLevel: nat,
    layerCount: nat,
    levelCount: nat,
    srcAccessMask: nat,
    dstAccessMask: nat)

  /** The transition every swapchain image gets: from undefined to
      presentable, colour aspect, one mip level, one layer, no ownership
      transfer, made visible to memory reads. */
  predicate PresentTransition(b: Barrier, image: nat) {
    && b.image == image
    && b.sType == STRUCTURE_TYPE_IMAGE_MEMORY_BARRIER && b.pNext == NULL
    && b.oldLayout == IMAGE_LAYOUT_UNDEFINED && b.newLayout == IMAGE_LAYOUT_PRESENT_SRC
    && b.srcQueueFamilyIndex == QUEUE_FAMILY_IGNORED && b.dstQueueFamilyIndex == QUEUE_FAMILY_IGNORED
    && b.aspectMask == IMAGE_ASPECT_COLOR
    && b.baseArrayLayer == 0 && b.baseMipLevel == 0 && b.layerCount == 1 && b.levelCount == 1
    && b.srcAccessMask == 0 && b.dstAccessMask == ACCESS_MEMORY_READ
  }

  /** The barrier list, built image by image. */
  method BuildBarriers(images: seq<nat>) returns (barriers: seq<Barrier>)
    ensures |barriers| == |images|
    ensures forall i :: 0 <= i < |images| ==> PresentTransition(barriers[i], images[i])
  {
    barriers := [];
    var i := 0;
    while i < |images|
      invariant 0 <= i <= |images|
      invariant |barriers| == i
      invariant forall k :: 0 <= k < i ==> PresentTransition(barriers[k], images[k])
    {
      var b := Barrier(images[i], STRUCTURE_TYPE_IMAGE_MEMORY_BARRIER, NULL,
                       IMAGE_LAYOUT_UNDEFINED, IMAGE_LAYOUT_PRESENT_SRC,
                       QUEUE_FAMILY_IGNORED, QUEUE_FAMILY_IGNORED,
                       IMAGE_ASPECT_COLOR, 0, 0, 1, 1, 0, ACCESS_MEMORY_READ);
      barriers := barriers + [b];
      i := i + 1;
    }
  }

  /** An image view: the image, its format, and the subresource range (base
      level, level count, base layer, layer count); the swizzle is identity. */
  datatype View = View(image: nat, format: nat, baseLevel: nat, levelCount: nat, baseLayer: nat, layerCount: nat)

  /** The steps of the constructor after the driver has made the swapchain. */
  datatype BuildStep =
    | RecordBarriers(barriers: seq<Barrier>)
    | SubmitBatch
    | WaitBatchFence
    | CreateView(view: View)

  /** The constructed swapchain: the driver create-info, the driver's images
      and one view per image. */
  datatype Swapchain = Swapchain(info: CreateInfo, images: seq<nat>, views: seq<View>)

  /** The constructor. `images` is what the driver returns for `info`. The
      barrier batch is recorded, submitted once and its fence waited for
      before the first view is created; then one view per image, in order. */
  method Build(factoryInfo: CreateInfo, images: seq<nat>) returns (sc: Swapchain, steps: seq<BuildStep>)
    ensures sc.info == Normalize(factoryInfo) && sc.images == images
    ensures |sc.views| == |images|
    ensures forall i :: 0 <= i < |images| ==>
              sc.views[i] == View(images[i], sc.info.imageFormat, 0, 1, 0, 1)
    ensures |steps| == 3 + |images|
    ensures steps[0].RecordBarriers? && |steps[0].barriers| == |images|
    ensures forall i :: 0 <= i < |images| ==> PresentTransition(steps[0].barriers[i], images[i])
    ensures steps[1] == SubmitBatch && steps[2] == WaitBatchFence
    ensures forall i :: 0 <= i < |images| ==> steps[3 + i] == CreateView(sc.views[i])
  {
    var info := Normalize(factoryInfo);
    var barriers := BuildBarriers(images);
    steps := [RecordBarriers(barriers), SubmitBatch, WaitBatchFence];
    var views: seq<View> := [];
    var i := 0;
    while i < |images|
      invariant 0 <= i <= |images|
      invariant |views| == i && |steps| == 3 + i
      invariant steps[..3] == [RecordBarriers(barriers), SubmitBatch, WaitBatchFence]
      invariant forall k :: 0 <= k < i ==> views[k] == View(images[k], info.imageFormat, 0, 1, 0, 1)
      invariant forall k :: 0 <= k < i ==> steps[3 + k] == CreateView(views[k])
    {
      var v := View(images[i], info.imageFormat, 0, 1, 0, 1);
      views := views + [v];
      steps := steps + [CreateView(v)];
      i := i + 1;
    }
    assert steps[0] == steps[..3][0];
    assert steps[1] == steps[..3][1];
    assert steps[2] == steps[..3][2];
    sc := Swapchain(info, images, views);
  }
}

=== FILE: wrappers.dfy ===
/** Failure-compatible wrappers shared by every module of the model. */
module Wrappers {

  /** An optional value: `std::optional`, or a pointer that may be null. */
  datatype Option<+T> = None | Some(value: T)

  /** A value, or the error a throwing call or a failed `.at()` lookup reports. */
  datatype Result<+T, +E> = Success(value: T) | Failure(error: E) {
    predicate IsFailure() {
      Failure?
    }

    function PropagateFailure<U>(): Result<U, E>
      requires Failure?
    {
      Failure(error)
    }

    function Extract(): T
      requires Success?
    {
      value
    }
  }
}
